=== FILE: README.md ===
# Story rooms, modelled in Dafny

This project models the core of a collaborative comic "story room" backend.

- Users create rooms, each with a six-character join code.
- Users join rooms by id or by code. A room holds at most five members, and joining twice changes nothing.
- The members take turns submitting a prompt.
- For each prompt, the service builds a decorated generation prompt. When the room already has panels, it starts with a "story so far" context built from the room's three newest prompts.
- The image generator is asked for a picture, which is uploaded to storage. A panel is saved with the caller's original prompt.
- The turn then passes round robin, in join order, to the next member.
- An hourly sweep deletes rooms inactive for more than 24 hours, after deleting their storage folder.
- Users keep a profile holding a unique, trimmed username.

The four repositories are the fields of one `Store.Database` object:

- rooms: a map keyed by id;
- memberships: a sequence in join order;
- panels: a sequence in creation order;
- profiles: a map keyed by user id.

The consistency the operations keep is stated as `Store.RoomsConsistent` and `Store.ProfilesConsistent`:

- every room's turn-holder is one of its members;
- no room has more than five members;
- no (room, user) membership is stored twice;
- room codes are well formed and distinct;
- usernames are trimmed, at least three UTF-16 code units long (as Java's `length()` counts) and unique.

The service methods change the store in place and are proved equal to pure functions on values. The properties are proved as lemmas about those functions.

The external collaborators are parameters:

- the image generator (`generate`), the text summariser (`summarize`), the storage upload (`upload`) and the storage folder delete (`deleteFolder`) are oracles answering success or failure;
- the two clock readings (`now` in nanoseconds, `millis` for the file name) are inputs;
- the random code draws and the new room's id are inputs;
- the authenticated caller's id is an input.

Module layout:

| file | module | models |
|---|---|---|
| entities.dfy | `Entities` | rooms, memberships, panels, profiles, the code alphabet |
| text.dfy | `Text` | Java's `trim`, `replace`, `String.join`, ASCII `toUpperCase`, decimal formatting |
| store.dfy | `Store` | the repositories' derived queries, the consistency predicates, the `Database` |
| turn_rotation.dfy | `TurnRotation` | the round-robin turn of `advanceTurn` |
| story_prompt.dfy | `StoryPrompt` | `generateStoryContext`, the generation prompt, storage keys |
| panel_service.dfy | `PanelService` | `createPanel`, `advanceTurn` |
| room_controller.dfy | `RoomController` | `createRoom`, `joinRoomById`, `joinRoomByCode`, `getRoomState`, code generation |
| room_cleanup.dfy | `RoomCleanup` | `cleanupStaleRooms` |
| user_controller.dfy | `UserController` | `getMyProfile`, `createOrUpdateProfile`, `getUserProfiles` |

Three behaviours of the source that the model keeps as written (the third rests on an assumption about the schema):

- A turn-holder missing from the member list does not keep the turn. The search leaves the index at -1, and `(-1 + 1) % n` hands the turn to the first member (`TurnRotation.MissingHolderGoesToFirst`).
- The upload is a single attempt. There is no retry and no local fallback: a failed upload fails the panel.
- `createRoom` does not set the last-activity time. `Room.java` declares only `id` and `createdAt`; the activity time is known only from its setter at `PanelService.java:97`, so nothing in the source says whether the column has a database default. The model assumes it stays NULL. Under that assumption, the stale-room query's `<` is false for a missing time, so a room that never received a panel is never swept.

## Model

| member | source | states |
|---|---|---|
| Text.Trim | src/main/java/com/storyweaver/api/user/UserController.java:38 | `trim` keeps a contiguous slice of the input that neither starts nor ends with a character at or below U+0020 |
| Text.TrimFrom | src/main/java/com/storyweaver/api/user/UserController.java:38 | the start index of `trim` passes only blanks and stops at a kept character or the end |
| Text.TrimTo | src/main/java/com/storyweaver/api/user/UserController.java:38 | the end index of `trim` drops only blanks, never passes the start, and stops after a kept character |
| Text.TrimmedIsFixed | src/main/java/com/storyweaver/api/user/UserController.java:44 | a string is trimmed exactly when trimming leaves it unchanged |
| Text.TrimIdempotent | src/main/java/com/storyweaver/api/user/UserController.java:44 | trimming twice is trimming once |
| Text.TrimEmptyIffBlank | src/main/java/com/storyweaver/api/service/PanelService.java:221 | a string trims to nothing exactly when all its characters are blanks |
| Text.TrimCutsOnlyTrimmable | src/main/java/com/storyweaver/api/service/PanelService.java:226 | `trim` keeps the slice between its two indices, and everything it removes before and after that slice is blank |
| Text.Utf16Length | src/main/java/com/storyweaver/api/user/UserController.java:38 | Java's `length()`: between the character count and twice it (per character and over concatenation: `Utf16LengthOfChar`, `Utf16LengthAppend`) |
| Text.Utf16LengthOfChar | src/main/java/com/storyweaver/api/user/UserController.java:38 | a character counts one code unit, or two when above U+FFFF |
| Text.Utf16LengthAppend | src/main/java/com/storyweaver/api/user/UserController.java:38 | the code units of a concatenation are the sum of its halves' |
| Text.RemoveAll | src/main/java/com/storyweaver/api/service/PanelService.java:226 | `replace("\"", "")` leaves no double quote and removes nothing else: same characters with the same counts otherwise (order: `RemoveAllAppend`, `RemoveAllAbsent`) |
| Text.RemoveAllAppend | src/main/java/com/storyweaver/api/service/PanelService.java:226 | removing quotes from a concatenation removes them from each half in place, so the kept characters keep their order |
| Text.RemoveAllAbsent | src/main/java/com/storyweaver/api/service/PanelService.java:226 | a string without a double quote comes back unchanged |
| Text.Join | src/main/java/com/storyweaver/api/service/PanelService.java:200 | `String.join` of no parts is empty and of one part is that part; otherwise its length is the parts' total plus one separator between neighbours, and it starts with the first part |
| Text.JoinAppend | src/main/java/com/storyweaver/api/service/PanelService.java:200 | joining one more part appends exactly the separator and that part, so every part and separator sits in order |
| Text.JoinEndsWithLast | src/main/java/com/storyweaver/api/service/PanelService.java:200 | the joined string ends with the last part |
| Text.ToUpper | src/main/java/com/storyweaver/api/room/RoomController.java:51 | upper-casing keeps the length and maps each character on its own |
| Text.ToUpperFixesUpperAndDigits | src/main/java/com/storyweaver/api/room/RoomController.java:51 | upper-casing leaves a string of capitals and digits unchanged |
| Text.UpperUndoesLower | src/main/java/com/storyweaver/api/room/RoomController.java:51 | upper-casing the lower-cased form of a code gives the code back |
| Text.Decimal | src/main/java/com/storyweaver/api/service/PanelService.java:160 | a number's decimal text is non-empty, all digits, and starts with '0' only when it is "0" itself |
| Text.ParseDecimalOfDecimal | src/main/java/com/storyweaver/api/service/PanelService.java:204-209 | the decimal text written by `%d` reads back as the same number |
| Store.Reverse | src/main/java/com/storyweaver/api/service/PanelService.java:70 | reversal keeps the length and puts position k's element at position n-1-k |
| Store.ReverseInvolution | src/main/java/com/storyweaver/api/service/PanelService.java:70 | reversing twice gives the original list |
| Store.LastN | src/main/java/com/storyweaver/api/panel/PanelRepository.java:14 | the last at most n elements, a suffix of the list, all of it when shorter |
| Store.LastNAppend | src/main/java/com/storyweaver/api/panel/PanelRepository.java:14 | the newest n of a list grown by one are the newest n of its newest n grown by one |
| Store.MemberIds | src/main/java/com/storyweaver/api/room/RoomMembershipRepository.java:12 | a user is among a room's members exactly when the (room, user) membership is stored |
| Store.MemberIdsAppend | src/main/java/com/storyweaver/api/room/RoomController.java:73-76 | a saved membership joins the end of its room's join order and no other room's |
| Store.MembersDistinct | src/main/java/com/storyweaver/api/room/RoomMembershipRepository.java:13 | with no (room, user) pair stored twice, a room's member list has no repeats |
| Store.UnusedRoomHasNoMembers | src/main/java/com/storyweaver/api/room/RoomController.java:38-41 | a freshly generated room id has no members |
| Store.CodeInUse | src/main/java/com/storyweaver/api/room/RoomController.java:100 | `findByCode(code).isPresent()`: some stored room carries the code (the lookup: `RoomController.FindByCode`) |
| Store.RoomPanels | src/main/java/com/storyweaver/api/panel/PanelRepository.java:12 | a room's panel list holds exactly the stored panels of that room |
| Store.RoomPanelsAppend | src/main/java/com/storyweaver/api/service/PanelService.java:96 | a saved panel becomes the newest of its room's panels and touches no other room's |
| Store.Top3Desc | src/main/java/com/storyweaver/api/panel/PanelRepository.java:14 | the room's three newest panels (all of them when fewer), newest first |
| TurnRotation.IndexOf | src/main/java/com/storyweaver/api/service/PanelService.java:111-117 | the index is -1 exactly when the holder is absent; otherwise it holds the holder, with no earlier occurrence |
| TurnRotation.FindTurnIndex | src/main/java/com/storyweaver/api/service/PanelService.java:111-117 | the search loop stops at the holder's first position, or leaves -1 when the holder is absent |
| TurnRotation.IndexOfFirst | src/main/java/com/storyweaver/api/service/PanelService.java:112-116 | the first position holding the user is the index the search reports |
| TurnRotation.NextIndex | src/main/java/com/storyweaver/api/service/PanelService.java:119 | `(i + 1) % n` is below n: the next position, or 0 after the last |
| TurnRotation.NextTurnHolder | src/main/java/com/storyweaver/api/service/PanelService.java:106-120 | the turn function of `advanceTurn`: the holder is kept for at most one member, otherwise the member at `(index + 1) % n` (its properties: the lemmas below) |
| TurnRotation.NextTurnHolderFollows | src/main/java/com/storyweaver/api/service/PanelService.java:119-120 | with distinct members, the member at position i hands the turn to the member at (i+1) mod n |
| TurnRotation.LastMemberWrapsToFirst | src/main/java/com/storyweaver/api/service/PanelService.java:119 | the last member in join order hands the turn to the first |
| TurnRotation.MissingHolderGoesToFirst | src/main/java/com/storyweaver/api/service/PanelService.java:111-120 | a holder missing from two or more members is replaced by the first member |
| TurnRotation.NextTurnHolderIsOtherMember | src/main/java/com/storyweaver/api/service/PanelService.java:104-122 | the new holder is a member; with distinct members, at least two, it is someone else |
| TurnRotation.TurnPosition | src/main/java/com/storyweaver/api/service/PanelService.java:119 | the turn's position after k panels is always a valid member position |
| TurnRotation.TurnPositionIsMod | src/main/java/com/storyweaver/api/service/PanelService.java:119 | applying `(index + 1) % n` k times from position i gives position (i+k) mod n |
| TurnRotation.HolderAtPosition | src/main/java/com/storyweaver/api/service/PanelService.java:119-122 | with distinct members, the holder after k panels is the member at that turn position |
| TurnRotation.HolderAfterSteps | src/main/java/com/storyweaver/api/service/PanelService.java:119-122 | after k panels starting at position i the turn is at position (i+k) mod n |
| TurnRotation.EveryMemberGetsATurn | src/main/java/com/storyweaver/api/service/PanelService.java:119-122 | every member holds the turn within n panels |
| TurnRotation.FullRoundReturns | src/main/java/com/storyweaver/api/service/PanelService.java:119-122 | after exactly n panels the turn is back with the member who started |
| StoryPrompt.SummaryRequestAsksForTwentyWordsEach | src/main/java/com/storyweaver/api/service/PanelService.java:204-209 | the summary request starts with the fixed lead, followed by a number that reads back as 20 times the prompt count |
| StoryPrompt.SummaryRequest | src/main/java/com/storyweaver/api/service/PanelService.java:204-209 | the summary request is the fixed lead, the target word count, " words: " and the joined prompts (its number: `SummaryRequestAsksForTwentyWordsEach`) |
| StoryPrompt.StoryContext | src/main/java/com/storyweaver/api/service/PanelService.java:195-233 | empty for no prompts; the ". "-joined prompts when the summariser fails or answers blank; otherwise the trimmed answer with every double quote removed, which keeps all its other characters |
| StoryPrompt.UsableSummary | src/main/java/com/storyweaver/api/service/PanelService.java:221 | the summary is used when it arrived and is not blank once trimmed (blank: `TrimEmptyIffBlank`) |
| StoryPrompt.FallbackContextOrder | src/main/java/com/storyweaver/api/service/PanelService.java:200 | the fallback context starts with the oldest prompt and ends with the newest |
| StoryPrompt.GenerationPrompt | src/main/java/com/storyweaver/api/service/PanelService.java:77-84 | the prompt ends with the caller's prompt followed by the style suffix; it is exactly those two when there are no earlier panels, and otherwise exactly the context, ", ", the prompt and the suffix |
| StoryPrompt.ObjectKey | src/main/java/com/storyweaver/api/service/PanelService.java:160 | the file name is exactly the room's prefix "roomId/", the upload time's decimal digits and ".jpg" |
| StoryPrompt.ObjectUrl | src/main/java/com/storyweaver/api/service/PanelService.java:160-162 | the upload URL is exactly the storage URL, "/storage/v1/object/panels/" and the object key |
| StoryPrompt.StoragePrefix | src/main/java/com/storyweaver/api/service/RoomCleanupService.java:70 | a room's folder is "roomId/" (which room's keys it selects: `PrefixSelectsRoom`) |
| StoryPrompt.PrefixSelectsRoom | src/main/java/com/storyweaver/api/service/RoomCleanupService.java:70 | the deleted prefix "roomId/" starts every upload key of that room and no key of another room |
| PanelService.PreviousPrompts | src/main/java/com/storyweaver/api/service/PanelService.java:69-73 | the prompts of the room's min(3, n) newest panels, oldest first; none exactly when the room has no panel |
| PanelService.PreviousPromptsSlide | src/main/java/com/storyweaver/api/service/PanelService.java:69-73 | a new panel of the room adds its prompt at the newest end of the window and drops the oldest once three are held; a panel of another room changes nothing |
| PanelService.PromptsOfLastN | src/main/java/com/storyweaver/api/service/PanelService.java:71-73 | taking the prompts and keeping the newest n commute |
| PanelService.ImageGenerated | src/main/java/com/storyweaver/api/service/PanelService.java:147 | the generator succeeded when it answered with a non-empty image |
| PanelService.LatestPanelOpensNextContext | src/main/java/com/storyweaver/api/service/PanelService.java:69-73 | a panel just saved is the newest prompt of the next context, which grows until it holds three |
| PanelService.ReverseInPlace | src/main/java/com/storyweaver/api/service/PanelService.java:70 | `Collections.reverse` leaves the array reversed |
| PanelService.RecentPanels | src/main/java/com/storyweaver/api/service/PanelService.java:69-70 | the three newest panels, queried newest first and reversed in place, end up oldest first: the room's last three panels |
| PanelService.CollectPreviousPrompts | src/main/java/com/storyweaver/api/service/PanelService.java:69-73 | the newest three panels, queried newest first and reversed, give their prompts oldest first |
| PanelService.AfterPanel | src/main/java/com/storyweaver/api/service/PanelService.java:97-98 | the room after a panel keeps its id and code, has the new activity time, and its holder is the old one or a member |
| PanelService.PanelKeepsRoomsConsistent | src/main/java/com/storyweaver/api/service/PanelService.java:96-100 | refreshing the activity time and passing the turn keep every room invariant |
| PanelService.TurnPassesToNextMember | src/main/java/com/storyweaver/api/service/PanelService.java:104-122 | in a consistent room the holder is found, and with two or more members the turn goes to the member after it, who is someone else; a lone member keeps the turn |
| PanelService.AdvanceTurn | src/main/java/com/storyweaver/api/service/PanelService.java:104-125 | with at most one member nothing changes or is saved; otherwise the room is saved with the next holder |
| PanelService.SavePanel | src/main/java/com/storyweaver/api/service/PanelService.java:91-100 | the panel is appended; only the room changes, getting the new activity time and the next holder; the saves come in source order |
| PanelService.CreatePanel | src/main/java/com/storyweaver/api/service/PanelService.java:59-102 | unknown room or wrong turn: the error, with no collaborator called and nothing changed. Generator failure or empty image: GenerationFailed. Upload failure: UploadFailed. Any failure leaves panels and rooms unchanged. Success: the original prompt, the upload URL, the room and the caller are saved; the room changes only in activity and turn; the store stays consistent |
| RoomController.AlphabetIndex | src/main/java/com/storyweaver/api/room/RoomController.java:105 | every capital and digit has a position in the alphabet |
| RoomController.AlphabetLayout | src/main/java/com/storyweaver/api/room/RoomController.java:105 | the alphabet is 36 characters: A to Z, then 0 to 9 |
| RoomController.AlphabetMembers | src/main/java/com/storyweaver/api/room/RoomController.java:105 | a character is in the alphabet exactly when it is a capital letter or a digit |
| RoomController.RandomCode | src/main/java/com/storyweaver/api/room/RoomController.java:104-111 | a draw of 6 positions gives a 6-character code over the alphabet |
| RoomController.DrawOf | src/main/java/com/storyweaver/api/room/RoomController.java:107-108 | each character of a code determines the position it was drawn from |
| RoomController.EveryCodeIsDrawable | src/main/java/com/storyweaver/api/room/RoomController.java:104-111 | every code over the alphabet is produced by some draw |
| RoomController.DrawIsRecoverable | src/main/java/com/storyweaver/api/room/RoomController.java:104-111 | the draw can be read back from the code, so different draws give different codes |
| RoomController.GenerateUniqueRoomCode | src/main/java/com/storyweaver/api/room/RoomController.java:96-102 | the result is a well-formed code no room uses: the first unused draw, every earlier draw being taken |
| RoomController.NewRoomKeepsConsistent | src/main/java/com/storyweaver/api/room/RoomController.java:31-45 | a new room with a fresh code and its creator as only member keeps the store consistent; its member list is exactly the creator |
| RoomController.CreateRoom | src/main/java/com/storyweaver/api/room/RoomController.java:31-45 | the new room has the given id, a fresh well-formed code, the creator as turn-holder and no activity time; exactly one membership, the creator's, is appended |
| RoomController.JoinRoom | src/main/java/com/storyweaver/api/room/RoomController.java:56-78 | not found exactly for an unknown room; full exactly when a non-member meets five members; errors change nothing; success returns the room, with the caller a member; at most the caller's membership is appended |
| RoomController.JoinIdempotent | src/main/java/com/storyweaver/api/room/RoomController.java:62-64 | joining again returns the same answer and changes nothing more |
| RoomController.NewJoinAppendsCaller | src/main/java/com/storyweaver/api/room/RoomController.java:68-77 | a newcomer's join puts the caller last in the join order, within five members, and leaves every other room's members unchanged |
| RoomController.JoinKeepsConsistent | src/main/java/com/storyweaver/api/room/RoomController.java:62-77 | joins never duplicate a membership, never exceed five members, and keep the turn-holder |
| RoomController.JoinRoomById | src/main/java/com/storyweaver/api/room/RoomController.java:56-78 | the endpoint answers and updates memberships exactly as `JoinRoom`, and the store stays consistent |
| RoomController.FindByCode | src/main/java/com/storyweaver/api/room/RoomRepository.java:13 | the lookup finds a room exactly when some room carries the code, and the room it finds carries it |
| RoomController.JoinByCode | src/main/java/com/storyweaver/api/room/RoomController.java:48-54 | `joinRoomByCode` on values: not found for an unknown upper-cased code, otherwise the join by the found room's id (its properties: `CodeJoinIgnoresCase`) |
| RoomController.CodeFindsItsRoom | src/main/java/com/storyweaver/api/room/RoomController.java:51 | codes are distinct, so a stored code finds its own room |
| RoomController.CodeJoinIgnoresCase | src/main/java/com/storyweaver/api/room/RoomController.java:48-54 | a code typed as stored or in lower case joins the room carrying it |
| RoomController.JoinRoomByCode | src/main/java/com/storyweaver/api/room/RoomController.java:48-54 | the code is upper-cased and looked up; unknown codes fail with nothing changed; otherwise the answer is a join by the found room's id |
| RoomController.GetRoomState | src/main/java/com/storyweaver/api/room/RoomController.java:81-93 | none exactly for an unknown room; otherwise the stored room and its members' ids in join order, the holder among them (no repeats: `RoomStateShowsHolder`) |
| RoomController.RoomStateShowsHolder | src/main/java/com/storyweaver/api/room/RoomController.java:86-91 | a room's member list has no repeats, one to five members, and the turn-holder |
| RoomCleanup.RemoveDeletedStep | src/main/java/com/storyweaver/api/service/RoomCleanupService.java:44-56 | handling one more stale room removes it exactly when its folder delete succeeded |
| RoomCleanup.StaleThreshold | src/main/java/com/storyweaver/api/service/RoomCleanupService.java:41 | the threshold is 24 hours before now (stated in `SweepRemovesExactlyDeletedStale`) |
| RoomCleanup.RemoveDeleted | src/main/java/com/storyweaver/api/service/RoomCleanupService.java:44-56 | the rooms left after handling some candidates: only rooms are removed, and the ones kept are unchanged |
| RoomCleanup.Swept | src/main/java/com/storyweaver/api/service/RoomCleanupService.java:38-57 | the sweep only removes rooms and leaves the others as they were |
| RoomCleanup.SweepRemovesExactlyDeletedStale | src/main/java/com/storyweaver/api/service/RoomCleanupService.java:41-50 | a room is removed exactly when its last activity is strictly before now - 24h and the delete of "roomId/" succeeded; every other room is kept unchanged |
| RoomCleanup.SweepKeepsConsistent | src/main/java/com/storyweaver/api/service/RoomCleanupService.java:50 | removing rooms keeps the store consistent |
| RoomCleanup.SweepIdempotent | src/main/java/com/storyweaver/api/service/RoomCleanupService.java:38-57 | a second sweep at the same time with the same storage answers removes nothing more |
| RoomCleanup.SweepRoom | src/main/java/com/storyweaver/api/service/RoomCleanupService.java:45-50 | the room is deleted exactly when its folder delete succeeded |
| RoomCleanup.CleanupStaleRooms | src/main/java/com/storyweaver/api/service/RoomCleanupService.java:38-57 | the rooms left are exactly those of `Swept`; a delete is requested for the prefix of every stale room, whatever the other rooms' outcomes |
| UserController.ValidUsername | src/main/java/com/storyweaver/api/user/UserController.java:38-44 | a name is accepted exactly when present and at least three UTF-16 code units once trimmed; the kept name is the trimmed input, at least three long and no longer than the input |
| UserController.TwoAstralCharactersAreLongEnough | src/main/java/com/storyweaver/api/user/UserController.java:38 | two characters above U+FFFF count as four and are accepted, as Java's `length()` counts them |
| UserController.BlankUsernameRefused | src/main/java/com/storyweaver/api/user/UserController.java:38-40 | a name of blanks only is refused, whatever its length |
| UserController.UsernameOf | src/main/java/com/storyweaver/api/user/UserController.java:36 | the body's "username" entry, none when missing or null (a null name is refused by `UpsertProfile`) |
| UserController.HeldByOther | src/main/java/com/storyweaver/api/user/UserProfile.java:18 | another user already holds the name, which the unique column forbids (the UsernameTaken case of `UpsertProfile`) |
| UserController.UpsertProfile | src/main/java/com/storyweaver/api/user/UserController.java:33-47 | bad request exactly for an invalid name; taken exactly when another user holds the trimmed name; errors change nothing; success saves the caller's id with the trimmed name |
| UserController.UpsertTouchesOnlyCaller | src/main/java/com/storyweaver/api/user/UserController.java:42-45 | the caller's entry becomes the saved profile, and every other entry is unchanged |
| UserController.UpsertIdempotent | src/main/java/com/storyweaver/api/user/UserController.java:42-45 | sending the same username twice has the effect and answer of sending it once |
| UserController.LastUsernameWins | src/main/java/com/storyweaver/api/user/UserController.java:44-45 | a later successful upsert by the same caller overwrites the earlier username |
| UserController.UpsertKeepsConsistent | src/main/java/com/storyweaver/api/user/UserProfile.java:18-19 | stored usernames stay trimmed, at least three code units long and unique |
| UserController.CreateOrUpdateProfile | src/main/java/com/storyweaver/api/user/UserController.java:33-47 | the endpoint reads `username` from the body and answers and updates profiles exactly as `UpsertProfile`; the store stays consistent |
| UserController.GetMyProfile | src/main/java/com/storyweaver/api/user/UserController.java:24-30 | the caller's stored profile exactly when one is stored, keyed by the caller with a valid username |
| UserController.ProfileReadsBackAfterUpsert | src/main/java/com/storyweaver/api/user/UserController.java:44-45 | after a successful upsert the caller's profile holds the trimmed name |
| UserController.GetUserProfiles | src/main/java/com/storyweaver/api/user/UserController.java:50-54 | every stored profile of a requested id is returned, and only such profiles |

## Left out

- The HTTP clients are oracles.
  - `callPollinationsImageApi` is `generate`: None when it throws or answers null.
  - `uploadToSupabaseStorage` is `upload`: whether the request succeeded.
  - The summary request of `generateStoryContext` is `summarize`: None when it throws or answers null.
  - `deleteSupabaseFolder` is `deleteFolder`.
  - Their URL encoding, headers, bodies and logging are left out.
- JWT parsing and `AuthHelper` are left out. The caller's id is a parameter.
- `Instant.now()`, `System.currentTimeMillis()` and `SecureRandom` are inputs. The model fixes no relation between `now` and `millis`.
- RoomController.CreateRoom: the new room's activity time is None. `Room.java` declares no activity field (only `id` and `createdAt`), so this assumes the database leaves `last_activity_at` NULL on insert; a database default filling it would make new rooms sweepable after 24 hours, which the model does not capture.
- PanelService.CreatePanel: the prompt is assumed present. `PanelController` passes `request.prompt()` on unchecked, so a body without "prompt" reaches the service as null. The source then builds the generation prompt from the text "null", saves a panel whose prompt is null (or fails at save time, after the upload, if the column refuses null), and later joins it into contexts as "null". A Dafny string cannot be null, and that path is not modelled.
- The id and creation time the database assigns are left out.
  - A new room's UUID is an input that no room, membership or panel uses yet.
  - Panel ids, panel `createdAt` and membership `joinedAt` are represented by the order of the sequences.
- RoomController.GenerateUniqueRoomCode: requires that some draw yields an unused code. The source loops for as long as the random source keeps producing taken codes, so non-termination is not modelled.
- The schema's cascades are not modelled. Deleting a room leaves its memberships and panels in place, which is why a new room id must be unused by them too.
- `@Transactional` rollback, concurrency between requests, and the hourly `@Scheduled` trigger are not modelled. Every operation runs alone and to completion. A failed `createPanel` has made no change before failing, so rollback is not needed there.
- The exception of a failed room delete inside the sweep is not modelled; only the folder delete can fail.
- The username unique column becomes the `UsernameTaken` error, with no change. The source's constraint violation is an unhandled error at save time.
- Text.Decimal: writes ASCII digits. `String.format("%d", …)` localises its digits to the JVM's default format locale (Arabic or Persian locales write non-ASCII digits), which is not modelled.
- Text.ToUpper: upper-cases ASCII letters only. `toUpperCase()` of non-ASCII letters is not modelled, nor its dependence on the JVM's default locale (under a Turkish or Azerbaijani locale 'i' becomes 'İ', so a lower-case code with an 'i' would not find its room).
- `trim` removes characters at or below U+0020 exactly as Java does. Those characters are never part of a surrogate pair, so trimming a string of Unicode scalar values agrees with trimming its UTF-16 form. Lengths are counted in UTF-16 code units by `Text.Utf16Length`.
- `ImageController` and `PanelController`, which lists a room's panels oldest first, are not part of this model; `Store.RoomPanels` is that query.
- UserController.GetUserProfiles: returns a set. The order of `findAllById`'s list is not modelled.

=== FILE: entities.dfy ===
/**
 * The persistent entities of the story-room backend (rooms, memberships,
 * panels, user profiles) and the small wrapper types the operations return.
 */
module Entities {
  import opened Text

  datatype Option<T> = None | Some(value: T)

  datatype Result<T, E> = Ok(value: T) | Err(error: E)

  /** User and room identities are UUIDs, kept in their textual form. */
  type UserId = string
  type RoomId = string

  /** A point in time, in nanoseconds since the epoch (the resolution of an Instant). */
  type Instant = int

  newtype byte = x: int | 0 <= x < 256

  /** The characters a room join code is drawn from, and its length. */
  const CodeAlphabet: string := "ABCDEFGHIJKLMNOPQRSTUVWXYZ0123456789"
  const CodeLength: nat := 6

  /** No room admits more members than this. */
  const MaxMembers: nat := 5

  predicate IsRoomCode(code: string) {
    |code| == CodeLength && forall i :: 0 <= i < |code| ==> IsCodeChar(code[i])
  }

  /**
   * A room. `lastActivityAt` is `None` until the first panel is saved:
   * creating a room does not set it.
   */
  datatype Room = Room(
    id: RoomId,
    code: string,
    currentTurnUserId: UserId,
    lastActivityAt: Option<Instant>)

  /** A user's membership of a room; the store keeps them in join order. */
  datatype RoomMembership = RoomMembership(roomId: RoomId, userId: UserId)

  /** A panel; the store keeps them in creation order. */
  datatype Panel = Panel(prompt: string, imageUrl: string, roomId: RoomId, authorId: UserId)

  /** A display name chosen by a user, keyed by the user's id. */
  datatype UserProfile = UserProfile(id: UserId, username: string)
}

=== FILE: panel_service.dfy ===
/**
 * Panel creation: check the turn, build the generation prompt from the
 * room's recent panels, call the image generator and the storage upload
 * (both oracles), save the panel with the caller's original prompt, refresh
 * the room's activity time and pass the turn on.
 */
module PanelService {
  import opened Entities
  import opened Store
  import opened TurnRotation
  import opened StoryPrompt

  datatype PanelError = RoomNotFound | NotYourTurn | GenerationFailed | UploadFailed

  /** What panel creation does outside the service, in order: requests to collaborators and saves. */
  datatype Effect =
    | SummaryRequested(request: string)
    | ImageRequested(prompt: string)
    | UploadRequested(url: string)
    | PanelSaved(panel: Panel)
    | RoomSaved(room: Room)

  /** The generator succeeded: it answered, and with a non-empty image. */
  predicate ImageGenerated(answer: Option<seq<byte>>) {
    answer.Some? && answer.value != []
  }

  function PromptsOf(ps: seq<Panel>): seq<string> {
    seq(|ps|, k requires 0 <= k < |ps| => ps[k].prompt)
  }

  /** The prompts of the room's (at most) three newest panels, oldest first. */
  function PreviousPrompts(panels: seq<Panel>, rid: RoomId): (r: seq<string>)
    ensures |r| <= RecentPanelCount
    ensures r == [] <==> RoomPanels(panels, rid) == []
    ensures var all := RoomPanels(panels, rid);
      && |r| == (if |all| < RecentPanelCount then |all| else RecentPanelCount)
      && forall k :: 0 <= k < |r| ==> r[k] == all[|all| - |r| + k].prompt
  {
    PromptsOf(LastN(RoomPanels(panels, rid), RecentPanelCount))
  }

  /** A panel just saved in a room is the newest of the prompts the next panel's context is built from. */
  lemma LatestPanelOpensNextContext(panels: seq<Panel>, p: Panel)
    ensures var r := PreviousPrompts(panels + [p], p.roomId);
      && r != [] && r[|r| - 1] == p.prompt
      && |r| == if |RoomPanels(panels, p.roomId)| < RecentPanelCount then |RoomPanels(panels, p.roomId)| + 1 else RecentPanelCount
  {
    RoomPanelsAppend(panels, p, p.roomId);
  }

  /**
   * The context window slides: a new panel of the room adds its prompt at
   * the newest end and, once three are held, drops the oldest; a panel of
   * another room leaves the window as it was.
   */
  lemma PreviousPromptsSlide(panels: seq<Panel>, p: Panel, rid: RoomId)
    ensures rid == p.roomId ==>
      PreviousPrompts(panels + [p], rid) == LastN(PreviousPrompts(panels, rid) + [p.prompt], RecentPanelCount)
    ensures rid != p.roomId ==> PreviousPrompts(panels + [p], rid) == PreviousPrompts(panels, rid)
  {
    RoomPanelsAppend(panels, p, rid);
    if rid == p.roomId {
      var all := RoomPanels(panels, rid);
      calc {
        PreviousPrompts(panels + [p], rid);
        PromptsOf(LastN(all + [p], RecentPanelCount));
        { PromptsOfLastN(all + [p], RecentPanelCount); }
        LastN(PromptsOf(all + [p]), RecentPanelCount);
        { assert PromptsOf(all + [p]) == PromptsOf(all) + [p.prompt]; }
        LastN(PromptsOf(all) + [p.prompt], RecentPanelCount);
        { LastNAppend(PromptsOf(all), p.prompt, RecentPanelCount); }
        LastN(LastN(PromptsOf(all), RecentPanelCount) + [p.prompt], RecentPanelCount);
        { PromptsOfLastN(all, RecentPanelCount); }
        LastN(PreviousPrompts(panels, rid) + [p.prompt], RecentPanelCount);
      }
    }
  }

  /** Taking the prompts and keeping the last n commute. */
  lemma PromptsOfLastN(ps: seq<Panel>, n: nat)
    ensures PromptsOf(LastN(ps, n)) == LastN(PromptsOf(ps), n)
  {
  }

  /** `Collections.reverse` on the query result. */
  method ReverseInPlace<T>(a: array<T>)
    modifies a
    ensures a[..] == Reverse(old(a[..]))
  {
    var n := a.Length;
    var i := 0;
    while i < n / 2
      invariant 0 <= i <= n / 2
      invariant forall k :: 0 <= k < i ==> a[k] == old(a[n - 1 - k]) && a[n - 1 - k] == old(a[k])
      invariant forall k :: i <= k < n - i ==> a[k] == old(a[k])
    {
      a[i], a[n - 1 - i] := a[n - 1 - i], a[i];
      i := i + 1;
    }
  }

  /**
   * Lines 69-70 of `createPanel`: the newest three panels of the room come
   * newest first from the repository and are reversed in place.
   */
  method RecentPanels(panels: seq<Panel>, rid: RoomId) returns (recent: array<Panel>)
    ensures fresh(recent)
    ensures recent[..] == LastN(RoomPanels(panels, rid), RecentPanelCount)
  {
    ghost var newest := LastN(RoomPanels(panels, rid), RecentPanelCount);
    var desc := Top3Desc(panels, rid);
    recent := new Panel[|desc|](k requires 0 <= k < |desc| => desc[k]);
    assert recent[..] == Reverse(newest);
    ReverseInPlace(recent);
    ReverseInvolution(newest);
  }

  /** Lines 69-73 of `createPanel`: the prompts of the room's newest three panels, oldest first. */
  method CollectPreviousPrompts(panels: seq<Panel>, rid: RoomId) returns (prompts: seq<string>)
    ensures prompts == PreviousPrompts(panels, rid)
  {
    var recent := RecentPanels(panels, rid);
    prompts := PromptsOf(recent[..]);
  }

  /** The room after a panel: activity refreshed to `now`, turn passed on among `members`. */
  function AfterPanel(room: Room, members: seq<UserId>, now: Instant): (r: Room)
    ensures r.id == room.id && r.code == room.code
    ensures r.lastActivityAt == Some(now)
    ensures r.currentTurnUserId == room.currentTurnUserId || r.currentTurnUserId in members
  {
    room.(lastActivityAt := Some(now), currentTurnUserId := NextTurnHolder(members, room.currentTurnUserId))
  }

  /** Saving a panel keeps every room invariant, the turn-holder being a member among them. */
  lemma PanelKeepsRoomsConsistent(rooms: map<RoomId, Room>, ms: seq<RoomMembership>, rid: RoomId, now: Instant)
    requires RoomsConsistent(rooms, ms) && rid in rooms
    ensures RoomsConsistent(rooms[rid := AfterPanel(rooms[rid], MemberIds(ms, rid), now)], ms)
  {
    var members := MemberIds(ms, rid);
    NextTurnHolderIsOtherMember(members, rooms[rid].currentTurnUserId);
    var rooms' := rooms[rid := AfterPanel(rooms[rid], members, now)];
    forall id | id in rooms'
      ensures rooms'[id].id == rooms[id].id && rooms'[id].code == rooms[id].code
      ensures rooms'[id].currentTurnUserId in MemberIds(ms, id)
    {
    }
  }

  /**
   * In a consistent room the turn passes from the holder, at index i of the
   * join order, to the member at NextIndex(i, n) = (i + 1) mod n, always someone else when
   * there are two or more members; a lone member keeps it.
   */
  lemma TurnPassesToNextMember(rooms: map<RoomId, Room>, ms: seq<RoomMembership>, rid: RoomId, now: Instant)
    requires RoomsConsistent(rooms, ms) && rid in rooms
    ensures var members := MemberIds(ms, rid);
      var holder := rooms[rid].currentTurnUserId;
      var next := AfterPanel(rooms[rid], members, now).currentTurnUserId;
      && 0 <= IndexOf(members, holder)
      && (2 <= |members| ==> next == members[NextIndex(IndexOf(members, holder), |members|)] && next != holder)
      && (|members| <= 1 ==> next == holder)
  {
    var members := MemberIds(ms, rid);
    MembersDistinct(ms, rid);
    NextTurnHolderIsOtherMember(members, rooms[rid].currentTurnUserId);
  }

  /**
   * `advanceTurn`: with two or more members, store the room with the turn
   * given to the member after the holder in join order.
   */
  method AdvanceTurn(db: Database, room: Room) returns (advanced: Room, ghost saves: seq<Effect>)
    modifies db`rooms
    ensures var members := MemberIds(db.memberships, room.id);
      && advanced == room.(currentTurnUserId := NextTurnHolder(members, room.currentTurnUserId))
      && (|members| <= 1 ==> db.rooms == old(db.rooms) && saves == [])
      && (2 <= |members| ==> db.rooms == old(db.rooms)[room.id := advanced] && saves == [RoomSaved(advanced)])
  {
    var members := MemberIds(db.memberships, room.id);
    if |members| <= 1 {
      return room, [];
    }
    var index := FindTurnIndex(members, room.currentTurnUserId);
    var next := members[NextIndex(index, |members|)];
    advanced := room.(currentTurnUserId := next);
    db.rooms := db.rooms[room.id := advanced];
    saves := [RoomSaved(advanced)];
  }

  /** The saves of a successful panel creation: the panel, then the room (twice when the turn moved). */
  function SaveEffects(panel: Panel, room: Room, memberCount: nat): seq<Effect> {
    [PanelSaved(panel)] + (if 2 <= memberCount then [RoomSaved(room)] else []) + [RoomSaved(room)]
  }

  /**
   * Lines 91-100 of `createPanel`: save the panel, refresh the room's
   * activity time, pass the turn on, save the room. The room is stored under
   * its own id.
   */
  method SavePanel(db: Database, panel: Panel, now: Instant) returns (room: Room, ghost saves: seq<Effect>)
    requires panel.roomId in db.rooms && db.rooms[panel.roomId].id == panel.roomId
    modifies db`rooms, db`panels
    ensures var members := MemberIds(db.memberships, panel.roomId);
      && room == AfterPanel(old(db.rooms)[panel.roomId], members, now)
      && db.panels == old(db.panels) + [panel]
      && db.rooms == old(db.rooms)[panel.roomId := room]
      && saves == SaveEffects(panel, room, |members|)
  {
    db.panels := db.panels + [panel];
    room := db.rooms[panel.roomId].(lastActivityAt := Some(now));
    ghost var turnSaves;
    room, turnSaves := AdvanceTurn(db, room);
    db.rooms := db.rooms[panel.roomId := room];
    saves := [PanelSaved(panel)] + turnSaves + [RoomSaved(room)];
  }

  /**
   * `createPanel`. The generator, the summariser and the upload are oracles:
   * `generate` answers the image request (None when it throws), `summarize`
   * answers the summary request (None when it throws or returns null), and
   * `upload` says whether the upload request succeeded. `now` and `millis`
   * are the two clock readings.
   */
  method CreatePanel(
    db: Database, prompt: string, roomId: RoomId, caller: UserId,
    now: Instant, millis: nat, storageUrl: string,
    summarize: string -> Option<string>,
    generate: string -> Option<seq<byte>>,
    upload: (seq<byte>, string) -> bool)
    returns (result: Result<Panel, PanelError>, ghost effects: seq<Effect>)
    requires db.Valid()
    modifies db`rooms, db`panels
    ensures db.Valid()
    ensures roomId !in old(db.rooms) ==> result == Err(RoomNotFound) && effects == []
    ensures roomId in old(db.rooms) && old(db.rooms)[roomId].currentTurnUserId != caller ==>
      result == Err(NotYourTurn) && effects == []
    ensures result.Err? ==> db.rooms == old(db.rooms) && db.panels == old(db.panels)
    ensures roomId in old(db.rooms) && old(db.rooms)[roomId].currentTurnUserId == caller ==>
      var previous := PreviousPrompts(old(db.panels), roomId);
      var finalPrompt := GenerationPrompt(prompt, previous, summarize);
      var image := generate(finalPrompt);
      var url := ObjectUrl(storageUrl, roomId, millis);
      var requests := (if previous == [] then [] else [SummaryRequested(SummaryRequest(previous))]) + [ImageRequested(finalPrompt)];
      var members := MemberIds(db.memberships, roomId);
      var room' := AfterPanel(old(db.rooms)[roomId], members, now);
      && (!ImageGenerated(image) ==> result == Err(GenerationFailed) && effects == requests)
      && (ImageGenerated(image) && !upload(image.value, url) ==>
            result == Err(UploadFailed) && effects == requests + [UploadRequested(url)])
      && (ImageGenerated(image) && upload(image.value, url) ==>
            && result == Ok(Panel(prompt, url, roomId, caller))
            && db.panels == old(db.panels) + [result.value]
            && db.rooms == old(db.rooms)[roomId := room']
            && effects == requests + [UploadRequested(url)] + SaveEffects(result.value, room', |members|))
  {
    effects := [];
    if roomId !in db.rooms {
      return Err(RoomNotFound), effects;
    }
    var room := db.rooms[roomId];
    if room.currentTurnUserId != caller {
      return Err(NotYourTurn), effects;
    }

    var previous := CollectPreviousPrompts(db.panels, roomId);
    var finalPrompt := GenerationPrompt(prompt, previous, summarize);
    ghost var requests := (if previous == [] then [] else [SummaryRequested(SummaryRequest(previous))]) + [ImageRequested(finalPrompt)];
    effects := requests;
    var image := generate(finalPrompt);
    if !ImageGenerated(image) {
      return Err(GenerationFailed), effects;
    }
    var url := ObjectUrl(storageUrl, roomId, millis);
    effects := requests + [UploadRequested(url)];
    if !upload(image.value, url) {
      return Err(UploadFailed), effects;
    }

    var panel := Panel(prompt, url, roomId, caller);
    ghost var saves;
    room, saves := SavePanel(db, panel, now);
    PanelKeepsRoomsConsistent(old(db.rooms), db.memberships, roomId, now);
    effects := requests + [UploadRequested(url)] + saves;
    result := Ok(panel);
  }
}

=== FILE: room_cleanup.dfy ===
/**
 * The stale-room sweep: every room whose last activity is strictly older than
 * 24 hours has its storage folder deleted and then the room itself; a room
 * whose folder delete fails stays, and the sweep goes on with the others.
 * The folder delete is an oracle answering whether it succeeded.
 */
module RoomCleanup {
  import opened Entities
  import opened Store
  import opened StoryPrompt

  /** 24 hours, in nanoseconds. */
  const StaleAge: int := 24 * 60 * 60 * 1_000_000_000

  /** `Instant.now().minus(Duration.ofHours(24))`. */
  function StaleThreshold(now: Instant): Instant {
    now - StaleAge
  }

  /** The rooms left after the candidates in `done` were processed: those whose folder delete succeeded are gone. */
  function RemoveDeleted(rooms: map<RoomId, Room>, done: set<RoomId>, deleteFolder: string -> bool): (r: map<RoomId, Room>)
    ensures r.Keys <= rooms.Keys
    ensures forall id :: id in r ==> r[id] == rooms[id]
  {
    map id | id in rooms && !(id in done && deleteFolder(StoragePrefix(id))) :: rooms[id]
  }

  /** Processing one more candidate removes it exactly when its folder delete succeeds. */
  lemma RemoveDeletedStep(rooms: map<RoomId, Room>, done: set<RoomId>, id: RoomId, deleteFolder: string -> bool)
    requires id !in done
    ensures RemoveDeleted(rooms, done + {id}, deleteFolder) ==
      if deleteFolder(StoragePrefix(id)) then RemoveDeleted(rooms, done, deleteFolder) - {id}
      else RemoveDeleted(rooms, done, deleteFolder)
  {
    var before, after := RemoveDeleted(rooms, done, deleteFolder), RemoveDeleted(rooms, done + {id}, deleteFolder);
    if deleteFolder(StoragePrefix(id)) {
      assert after.Keys == before.Keys - {id};
    } else {
      assert after.Keys == before.Keys;
    }
  }

  /** The rooms a sweep at `now` leaves. */
  function Swept(rooms: map<RoomId, Room>, now: Instant, deleteFolder: string -> bool): (r: map<RoomId, Room>)
    ensures r.Keys <= rooms.Keys
    ensures forall id :: id in r ==> r[id] == rooms[id]
  {
    RemoveDeleted(rooms, StaleRoomIds(rooms, StaleThreshold(now)), deleteFolder)
  }

  /**
   * A room is removed exactly when its last activity is strictly before
   * now - 24h and its folder delete succeeded; a room never active, or active
   * at or after the threshold, is left as it was.
   */
  lemma SweepRemovesExactlyDeletedStale(rooms: map<RoomId, Room>, now: Instant, deleteFolder: string -> bool, id: RoomId)
    requires id in rooms
    ensures id !in Swept(rooms, now, deleteFolder) <==>
      && rooms[id].lastActivityAt.Some?
      && rooms[id].lastActivityAt.value < now - 24 * 60 * 60 * 1_000_000_000
      && deleteFolder(id + "/")
    ensures id in Swept(rooms, now, deleteFolder) ==> Swept(rooms, now, deleteFolder)[id] == rooms[id]
  {
  }

  /** Deleting rooms keeps the remaining ones consistent. */
  lemma SweepKeepsConsistent(rooms: map<RoomId, Room>, ms: seq<RoomMembership>, now: Instant, deleteFolder: string -> bool)
    requires RoomsConsistent(rooms, ms)
    ensures RoomsConsistent(Swept(rooms, now, deleteFolder), ms)
  {
  }

  /** A second sweep at the same time, with the same storage answers, removes nothing more. */
  lemma SweepIdempotent(rooms: map<RoomId, Room>, now: Instant, deleteFolder: string -> bool)
    ensures Swept(Swept(rooms, now, deleteFolder), now, deleteFolder) == Swept(rooms, now, deleteFolder)
  {
  }

  /** The storage prefixes of a set of rooms. */
  function Prefixes(ids: set<RoomId>): set<string> {
    set id | id in ids :: StoragePrefix(id)
  }

  lemma PrefixesAdd(ids: set<RoomId>, id: RoomId)
    ensures Prefixes(ids + {id}) == Prefixes(ids) + {StoragePrefix(id)}
  {
  }

  /** One iteration of the sweep: delete the room's folder and, if that worked, the room. */
  method SweepRoom(db: Database, id: RoomId, deleteFolder: string -> bool)
    modifies db`rooms
    ensures db.rooms == if deleteFolder(StoragePrefix(id)) then old(db.rooms) - {id} else old(db.rooms)
  {
    if deleteFolder(StoragePrefix(id)) {
      db.rooms := db.rooms - {id};
    }
  }

  /**
   * `cleanupStaleRooms`: for each stale room, in whatever order the query
   * returns them, request the delete of its storage prefix and, if that
   * succeeded, delete the room. `requested` records the prefixes asked for.
   */
  method CleanupStaleRooms(db: Database, now: Instant, deleteFolder: string -> bool) returns (ghost requested: set<string>)
    requires db.Valid()
    modifies db`rooms
    ensures db.Valid()
    ensures db.rooms == Swept(old(db.rooms), now, deleteFolder)
    ensures requested == Prefixes(StaleRoomIds(old(db.rooms), StaleThreshold(now)))
  {
    var threshold := StaleThreshold(now);
    var stale := StaleRoomIds(db.rooms, threshold);
    var pending := stale;
    requested := {};
    while pending != {}
      invariant pending <= stale
      invariant db.rooms == RemoveDeleted(old(db.rooms), stale - pending, deleteFolder)
      invariant requested == Prefixes(stale - pending)
      decreases |pending|
    {
      var id :| id in pending;
      ghost var done := stale - pending;
      RemoveDeletedStep(old(db.rooms), done, id, deleteFolder);
      PrefixesAdd(done, id);
      requested := requested + {StoragePrefix(id)};
      SweepRoom(db, id, deleteFolder);
      pending := pending - {id};
      assert stale - pending == done + {id};
    }
    assert stale - pending == stale;
    SweepKeepsConsistent(old(db.rooms), db.memberships, now, deleteFolder);
  }
}

=== FILE: room_controller.dfy ===
/**
 * The room endpoints: creating a room with a fresh join code, joining by id
 * or by code (idempotent, capped at MaxMembers), and reading a room's state.
 * The caller's id, the new room's id and the random draws are parameters.
 */
module RoomController {
  import opened Entities
  import opened Text
  import opened Store

  // ---------------------------------------------------------------------
  // Join codes

  /** The alphabet's character at position i: 'A'..'Z', then '0'..'9'. */
  function AlphabetChar(i: nat): char
    requires i < 36
  {
    if i < 26 then ('A' as int + i) as char else ('0' as int + i - 26) as char
  }

  /** The position of an upper-case letter or digit in the alphabet. */
  function AlphabetIndex(c: char): (i: nat)
    requires IsCodeChar(c)
    ensures i < 36 && AlphabetChar(i) == c
  {
    if 'A' <= c <= 'Z' then c as int - 'A' as int else 26 + c as int - '0' as int
  }

  lemma AlphabetLayout()
    ensures |CodeAlphabet| == 36
    ensures forall i :: 0 <= i < 36 ==> CodeAlphabet[i] == AlphabetChar(i)
  {
    assert CodeAlphabet == seq(36, i requires 0 <= i < 36 => AlphabetChar(i));
  }

  /** The alphabet holds exactly the upper-case ASCII letters and the digits. */
  lemma AlphabetMembers(c: char)
    ensures c in CodeAlphabet <==> IsCodeChar(c)
  {
    AlphabetLayout();
    if IsCodeChar(c) {
      assert CodeAlphabet[AlphabetIndex(c)] == c;
    }
  }

  /** One draw of `random.ints(length, 0, 36)`, 36 being the alphabet's length: a position per character. */
  predicate IsDraw(draw: seq<nat>) {
    forall i :: 0 <= i < |draw| ==> draw[i] < 36
  }

  /**
   * `generateRandomCode`: character i is the alphabet character at the i-th
   * random position (`AlphabetChar`, which is `CodeAlphabet` by AlphabetLayout).
   */
  function RandomCode(draw: seq<nat>): (code: string)
    requires IsDraw(draw)
    ensures |code| == |draw|
    ensures forall i :: 0 <= i < |code| ==> IsCodeChar(code[i])
    ensures |draw| == CodeLength ==> IsRoomCode(code)
  {
    seq(|draw|, i requires 0 <= i < |draw| => AlphabetChar(draw[i]))
  }

  /** The draw that produces `code`: at each position, where the code's character sits in the alphabet. */
  function DrawOf(code: string): (draw: seq<nat>)
    requires forall i :: 0 <= i < |code| ==> IsCodeChar(code[i])
    ensures |draw| == |code| && IsDraw(draw)
    ensures forall i :: 0 <= i < |code| ==> AlphabetChar(draw[i]) == code[i]
  {
    if code == [] then []
    else
      [AlphabetIndex(code[0])] + DrawOf(code[1..])
  }

  /** Every code over the alphabet can be drawn. */
  lemma EveryCodeIsDrawable(code: string)
    requires forall i :: 0 <= i < |code| ==> IsCodeChar(code[i])
    ensures RandomCode(DrawOf(code)) == code
  {
    var r := RandomCode(DrawOf(code));
    forall i | 0 <= i < |code|
      ensures r[i] == code[i]
    {
      assert r[i] == AlphabetChar(DrawOf(code)[i]);
    }
  }

  /** Different draws give different codes: the draw can be read back from the code. */
  lemma DrawIsRecoverable(draw: seq<nat>)
    requires IsDraw(draw)
    ensures DrawOf(RandomCode(draw)) == draw
  {
    var code := RandomCode(draw);
    var d := DrawOf(code);
    forall i | 0 <= i < |draw|
      ensures d[i] == draw[i]
    {
      assert AlphabetChar(d[i]) == code[i] == AlphabetChar(draw[i]);
    }
  }

  /** The random source's successive draws, each a full-length code draw. */
  predicate WellFormedDraws(draws: seq<seq<nat>>) {
    forall k :: 0 <= k < |draws| ==> |draws[k]| == CodeLength && IsDraw(draws[k])
  }

  /** Some draw yields a code no room uses; without one the retry loop never ends. */
  predicate SomeDrawUnused(rooms: map<RoomId, Room>, draws: seq<seq<nat>>)
    requires WellFormedDraws(draws)
  {
    exists k :: 0 <= k < |draws| && !CodeInUse(rooms, RandomCode(draws[k]))
  }

  /**
   * `generateUniqueRoomCode`: draw codes until one is not in use. The result
   * is the code of the first unused draw, after `attempts` draws, all earlier
   * ones being taken.
   */
  method GenerateUniqueRoomCode(db: Database, draws: seq<seq<nat>>) returns (code: string, attempts: nat)
    requires WellFormedDraws(draws) && SomeDrawUnused(db.rooms, draws)
    ensures 1 <= attempts <= |draws| && code == RandomCode(draws[attempts - 1])
    ensures IsRoomCode(code) && !CodeInUse(db.rooms, code)
    ensures forall k :: 0 <= k < attempts - 1 ==> CodeInUse(db.rooms, RandomCode(draws[k]))
  {
    ghost var unused :| 0 <= unused < |draws| && !CodeInUse(db.rooms, RandomCode(draws[unused]));
    code := RandomCode(draws[0]);
    attempts := 1;
    while CodeInUse(db.rooms, code)
      invariant 1 <= attempts <= unused + 1 && code == RandomCode(draws[attempts - 1])
      invariant forall k :: 0 <= k < attempts - 1 ==> CodeInUse(db.rooms, RandomCode(draws[k]))
      decreases unused + 1 - attempts
    {
      code := RandomCode(draws[attempts]);
      attempts := attempts + 1;
    }
  }

  // ---------------------------------------------------------------------
  // Creating a room

  /**
   * A new room, with a code no other room has, its creator as turn-holder and
   * the creator's membership as its only one, keeps the store consistent.
   */
  lemma NewRoomKeepsConsistent(rooms: map<RoomId, Room>, ms: seq<RoomMembership>, room: Room)
    requires RoomsConsistent(rooms, ms)
    requires room.id !in rooms && forall i :: 0 <= i < |ms| ==> ms[i].roomId != room.id
    requires IsRoomCode(room.code) && !CodeInUse(rooms, room.code)
    ensures var ms' := ms + [RoomMembership(room.id, room.currentTurnUserId)];
      && RoomsConsistent(rooms[room.id := room], ms')
      && MemberIds(ms', room.id) == [room.currentTurnUserId]
  {
    var m := RoomMembership(room.id, room.currentTurnUserId);
    var ms' := ms + [m];
    var rooms' := rooms[room.id := room];
    forall id | id in rooms'
      ensures MemberIds(ms', id) == MemberIds(ms, id) + (if id == room.id then [room.currentTurnUserId] else [])
    {
      MemberIdsAppend(ms, m, id);
    }
    UnusedRoomHasNoMembers(ms, room.id);
    assert m !in ms;
    assert forall id :: id in rooms ==> rooms[id].code != room.code;
  }

  /**
   * `createRoom`: the creator holds the turn of a new room with a fresh code
   * and is its only member. The room has no activity time yet.
   */
  method CreateRoom(db: Database, caller: UserId, roomId: RoomId, draws: seq<seq<nat>>) returns (room: Room)
    requires db.Valid()
    requires UnusedRoomId(db.rooms, db.memberships, db.panels, roomId)
    requires WellFormedDraws(draws) && SomeDrawUnused(db.rooms, draws)
    modifies db`rooms, db`memberships
    ensures db.Valid()
    ensures room.id == roomId && room.currentTurnUserId == caller && room.lastActivityAt == None
    ensures IsRoomCode(room.code) && !CodeInUse(old(db.rooms), room.code)
    ensures db.rooms == old(db.rooms)[roomId := room]
    ensures db.memberships == old(db.memberships) + [RoomMembership(roomId, caller)]
    ensures MemberIds(db.memberships, roomId) == [caller]
  {
    var code, _ := GenerateUniqueRoomCode(db, draws);
    room := Room(roomId, code, caller, None);
    NewRoomKeepsConsistent(db.rooms, db.memberships, room);
    db.rooms := db.rooms[roomId := room];
    db.memberships := db.memberships + [RoomMembership(roomId, caller)];
  }

  // ---------------------------------------------------------------------
  // Joining a room

  datatype JoinError = RoomNotFound | RoomFull

  /** The answer to a join and the membership list after it. */
  datatype JoinOutcome = JoinOutcome(result: Result<Room, JoinError>, memberships: seq<RoomMembership>)

  /**
   * `joinRoomById` on values: an unknown room fails; a member joining again
   * gets the room back; a full room refuses a newcomer; otherwise the
   * caller's membership is appended.
   */
  function JoinRoom(rooms: map<RoomId, Room>, ms: seq<RoomMembership>, caller: UserId, rid: RoomId): (o: JoinOutcome)
    ensures o.result == Err(RoomNotFound) <==> rid !in rooms
    ensures o.result == Err(RoomFull) <==>
      rid in rooms && RoomMembership(rid, caller) !in ms && |MemberIds(ms, rid)| >= MaxMembers
    ensures o.result.Err? ==> o.memberships == ms
    ensures o.result.Ok? ==> rid in rooms && o.result.value == rooms[rid] && RoomMembership(rid, caller) in o.memberships
    ensures o.memberships == ms || o.memberships == ms + [RoomMembership(rid, caller)]
  {
    if rid !in rooms then JoinOutcome(Err(RoomNotFound), ms)
    else if RoomMembership(rid, caller) in ms then JoinOutcome(Ok(rooms[rid]), ms)
    else if |MemberIds(ms, rid)| >= MaxMembers then JoinOutcome(Err(RoomFull), ms)
    else JoinOutcome(Ok(rooms[rid]), ms + [RoomMembership(rid, caller)])
  }

  /** Joining twice has the effect of joining once. */
  lemma JoinIdempotent(rooms: map<RoomId, Room>, ms: seq<RoomMembership>, caller: UserId, rid: RoomId)
    ensures var o := JoinRoom(rooms, ms, caller, rid);
      JoinRoom(rooms, o.memberships, caller, rid) == o
  {
  }

  /**
   * A newcomer's successful join puts the caller last in the room's join
   * order and leaves every other room's members as they were.
   */
  lemma NewJoinAppendsCaller(rooms: map<RoomId, Room>, ms: seq<RoomMembership>, caller: UserId, rid: RoomId, other: RoomId)
    requires RoomMembership(rid, caller) !in ms
    requires JoinRoom(rooms, ms, caller, rid).result.Ok?
    ensures var ms' := JoinRoom(rooms, ms, caller, rid).memberships;
      && MemberIds(ms', rid) == MemberIds(ms, rid) + [caller]
      && |MemberIds(ms', rid)| <= MaxMembers
      && (other != rid ==> MemberIds(ms', other) == MemberIds(ms, other))
  {
    MemberIdsAppend(ms, RoomMembership(rid, caller), rid);
    MemberIdsAppend(ms, RoomMembership(rid, caller), other);
  }

  /** Joins keep every room invariant: no repeated membership, at most MaxMembers, the holder a member. */
  lemma JoinKeepsConsistent(rooms: map<RoomId, Room>, ms: seq<RoomMembership>, caller: UserId, rid: RoomId)
    requires RoomsConsistent(rooms, ms)
    ensures RoomsConsistent(rooms, JoinRoom(rooms, ms, caller, rid).memberships)
  {
    var ms' := JoinRoom(rooms, ms, caller, rid).memberships;
    if ms' != ms {
      forall id | id in rooms
        ensures MemberIds(ms', id) == MemberIds(ms, id) + (if id == rid then [caller] else [])
      {
        MemberIdsAppend(ms, RoomMembership(rid, caller), id);
      }
    }
  }

  /** `joinRoomById`. */
  method JoinRoomById(db: Database, caller: UserId, rid: RoomId) returns (result: Result<Room, JoinError>)
    requires db.Valid()
    modifies db`memberships
    ensures db.Valid()
    ensures JoinOutcome(result, db.memberships) == JoinRoom(db.rooms, old(db.memberships), caller, rid)
  {
    JoinKeepsConsistent(db.rooms, db.memberships, caller, rid);
    if rid !in db.rooms {
      return Err(RoomNotFound);
    }
    var room := db.rooms[rid];
    if RoomMembership(rid, caller) in db.memberships {
      return Ok(room);
    }
    var members := MemberIds(db.memberships, rid);
    if |members| >= MaxMembers {
      return Err(RoomFull);
    }
    db.memberships := db.memberships + [RoomMembership(rid, caller)];
    result := Ok(room);
  }

  /** `findByCode`: the room carrying `code`, if any. */
  ghost function FindByCode(rooms: map<RoomId, Room>, code: string): (r: Option<RoomId>)
    ensures r.None? <==> !CodeInUse(rooms, code)
    ensures r.Some? ==> r.value in rooms && rooms[r.value].code == code
  {
    if CodeInUse(rooms, code) then
      var id :| id in rooms && rooms[id].code == code;
      Some(id)
    else None
  }

  /** Codes are distinct, so a stored room's code finds that room. */
  lemma CodeFindsItsRoom(rooms: map<RoomId, Room>, ms: seq<RoomMembership>, id: RoomId)
    requires RoomsConsistent(rooms, ms) && id in rooms
    ensures FindByCode(rooms, rooms[id].code) == Some(id)
  {
  }

  /** `joinRoomByCode` on values: look the upper-cased code up, then join that room by id. */
  ghost function JoinByCode(rooms: map<RoomId, Room>, ms: seq<RoomMembership>, caller: UserId, code: string): JoinOutcome {
    match FindByCode(rooms, ToUpper(code))
    case None => JoinOutcome(Err(RoomNotFound), ms)
    case Some(id) => JoinRoom(rooms, ms, caller, id)
  }

  /** A stored code typed as it is or in lower case joins the room that carries it. */
  lemma CodeJoinIgnoresCase(rooms: map<RoomId, Room>, ms: seq<RoomMembership>, caller: UserId, id: RoomId)
    requires RoomsConsistent(rooms, ms) && id in rooms
    ensures JoinByCode(rooms, ms, caller, rooms[id].code) == JoinRoom(rooms, ms, caller, id)
    ensures JoinByCode(rooms, ms, caller, ToLower(rooms[id].code)) == JoinRoom(rooms, ms, caller, id)
  {
    var code := rooms[id].code;
    ToUpperFixesUpperAndDigits(code);
    UpperUndoesLower(code);
    CodeFindsItsRoom(rooms, ms, id);
  }

  /** `joinRoomByCode`: an unknown code fails; otherwise the join by the found room's id. */
  method JoinRoomByCode(db: Database, caller: UserId, code: string) returns (result: Result<Room, JoinError>)
    requires db.Valid()
    modifies db`memberships
    ensures db.Valid()
    ensures JoinOutcome(result, db.memberships) == JoinByCode(db.rooms, old(db.memberships), caller, code)
  {
    var upper := ToUpper(code);
    if !CodeInUse(db.rooms, upper) {
      return Err(RoomNotFound);
    }
    var id :| id in db.rooms && db.rooms[id].code == upper;
    CodeFindsItsRoom(db.rooms, db.memberships, id);
    result := JoinRoomById(db, caller, db.rooms[id].id);
  }

  // ---------------------------------------------------------------------
  // Room state

  /** The room and its members' ids in join order (`RoomStateDto`). */
  datatype RoomState = RoomState(room: Room, members: seq<UserId>)

  /** `getRoomState`: None for an unknown room. */
  function GetRoomState(db: Database, rid: RoomId): (r: Option<RoomState>)
    reads db
    ensures r.Some? <==> rid in db.rooms
    ensures r.Some? ==> r.value.room == db.rooms[rid]
    ensures db.Valid() && r.Some? ==> r.value.room.id == rid && r.value.room.currentTurnUserId in r.value.members
    ensures r.Some? ==> r.value.members == MemberIds(db.memberships, rid)
    ensures r.Some? ==> forall u :: u in r.value.members <==> RoomMembership(rid, u) in db.memberships
  {
    if rid !in db.rooms then None
    else Some(RoomState(db.rooms[rid], MemberIds(db.memberships, rid)))
  }

  /**
   * In a consistent store the state of a room lists each member once, at most
   * MaxMembers of them, the turn-holder among them.
   */
  lemma RoomStateShowsHolder(rooms: map<RoomId, Room>, ms: seq<RoomMembership>, rid: RoomId)
    requires RoomsConsistent(rooms, ms) && rid in rooms
    ensures var members := MemberIds(ms, rid);
      && Distinct(members) && 1 <= |members| <= MaxMembers
      && rooms[rid].currentTurnUserId in members
  {
    MembersDistinct(ms, rid);
  }
}

=== FILE: store.dfy ===
/**
 * The persistence layer: the four tables the services share, the derived
 * queries the repositories offer (their meaning read off the query names),
 * and the consistency the room and profile operations keep.
 */
module Store {
  import opened Entities
  import opened Text

  /** A sequence without repeated elements. */
  ghost predicate Distinct<T>(s: seq<T>) {
    forall i, j :: 0 <= i < j < |s| ==> s[i] != s[j]
  }

  /** Reversal (`Collections.reverse`): position k holds what position |s|-1-k held. */
  function Reverse<T>(s: seq<T>): (r: seq<T>)
    ensures |r| == |s|
    ensures forall k :: 0 <= k < |s| ==> r[k] == s[|s| - 1 - k]
  {
    if s == [] then [] else [s[|s| - 1]] + Reverse(s[..|s| - 1])
  }

  lemma ReverseInvolution<T>(s: seq<T>)
    ensures Reverse(Reverse(s)) == s
  {
    var r := Reverse(Reverse(s));
    forall k | 0 <= k < |s|
      ensures r[k] == s[k]
    {
      assert r[k] == Reverse(s)[|s| - 1 - k];
    }
  }

  /** The last (at most) `n` elements, in their original order. */
  function LastN<T>(s: seq<T>, n: nat): (r: seq<T>)
    ensures |r| <= n && |r| <= |s|
    ensures |r| == n || r == s
    ensures r == s[|s| - |r|..]
  {
    if |s| <= n then s else s[|s| - n..]
  }

  /** The last n of a list grown by one are the last n of its last n grown by one. */
  lemma LastNAppend<T>(s: seq<T>, x: T, n: nat)
    ensures LastN(s + [x], n) == LastN(LastN(s, n) + [x], n)
  {
    var a, b := LastN(s + [x], n), LastN(LastN(s, n) + [x], n);
    assert |a| == |b|;
    forall k | 0 <= k < |a|
      ensures a[k] == b[k]
    {
    }
  }

  // ---------------------------------------------------------------------
  // Membership queries

  /** `findByRoomIdOrderByJoinedAtAsc` mapped to user ids: the room's members in join order. */
  function MemberIds(ms: seq<RoomMembership>, rid: RoomId): (ids: seq<UserId>)
    ensures |ids| <= |ms|
    ensures forall u :: u in ids <==> RoomMembership(rid, u) in ms
  {
    if ms == [] then []
    else
      var init, last := ms[..|ms| - 1], ms[|ms| - 1];
      assert ms == init + [last];
      MemberIds(init, rid) + (if last.roomId == rid then [last.userId] else [])
  }

  lemma MemberIdsAppend(ms: seq<RoomMembership>, m: RoomMembership, rid: RoomId)
    ensures MemberIds(ms + [m], rid) == MemberIds(ms, rid) + (if m.roomId == rid then [m.userId] else [])
  {
    assert (ms + [m])[..|ms|] == ms;
  }

  /** No (room, user) pair is stored twice. */
  ghost predicate NoDuplicateMemberships(ms: seq<RoomMembership>) {
    Distinct(ms)
  }

  /** Unique (room, user) pairs give each room a list of members without repeats. */
  lemma {:induction false} MembersDistinct(ms: seq<RoomMembership>, rid: RoomId)
    requires NoDuplicateMemberships(ms)
    ensures Distinct(MemberIds(ms, rid))
  {
    if ms != [] {
      var init, last := ms[..|ms| - 1], ms[|ms| - 1];
      assert ms == init + [last];
      MembersDistinct(init, rid);
      MemberIdsAppend(init, last, rid);
      if last.roomId == rid {
        assert last !in init;
        assert last.userId !in MemberIds(init, rid);
      }
    }
  }

  /** A room nobody has referred to yet: a freshly generated UUID. */
  ghost predicate UnusedRoomId(rooms: map<RoomId, Room>, ms: seq<RoomMembership>, panels: seq<Panel>, rid: RoomId) {
    && rid !in rooms
    && (forall i :: 0 <= i < |ms| ==> ms[i].roomId != rid)
    && (forall i :: 0 <= i < |panels| ==> panels[i].roomId != rid)
  }

  lemma UnusedRoomHasNoMembers(ms: seq<RoomMembership>, rid: RoomId)
    requires forall i :: 0 <= i < |ms| ==> ms[i].roomId != rid
    ensures MemberIds(ms, rid) == []
  {
  }

  // ---------------------------------------------------------------------
  // Room queries

  /** `findByCode(code).isPresent()`. */
  predicate CodeInUse(rooms: map<RoomId, Room>, code: string) {
    exists id :: id in rooms && rooms[id].code == code
  }

  /** A room is stale when its last activity is strictly before the threshold; a room never active is not. */
  predicate IsStale(room: Room, threshold: Instant) {
    room.lastActivityAt.Some? && room.lastActivityAt.value < threshold
  }

  /** `findByLastActivityAtBefore(threshold)`, as a set of ids. */
  function StaleRoomIds(rooms: map<RoomId, Room>, threshold: Instant): set<RoomId> {
    set id | id in rooms && IsStale(rooms[id], threshold)
  }

  // ---------------------------------------------------------------------
  // Panel queries

  /** The panels of one room, oldest first (`findByRoomIdOrderByCreatedAtAsc`). */
  function RoomPanels(panels: seq<Panel>, rid: RoomId): (r: seq<Panel>)
    ensures |r| <= |panels|
    ensures forall k :: 0 <= k < |r| ==> r[k].roomId == rid
    ensures forall p :: p in r <==> p in panels && p.roomId == rid
  {
    if panels == [] then []
    else
      var init, last := panels[..|panels| - 1], panels[|panels| - 1];
      assert panels == init + [last];
      RoomPanels(init, rid) + (if last.roomId == rid then [last] else [])
  }

  lemma RoomPanelsAppend(panels: seq<Panel>, p: Panel, rid: RoomId)
    ensures RoomPanels(panels + [p], rid) == RoomPanels(panels, rid) + (if p.roomId == rid then [p] else [])
  {
    assert (panels + [p])[..|panels|] == panels;
  }

  /** How many recent panels feed the story context. */
  const RecentPanelCount: nat := 3

  /** `findTop3ByRoomIdOrderByCreatedAtDesc`: the room's three newest panels, newest first. */
  function Top3Desc(panels: seq<Panel>, rid: RoomId): (r: seq<Panel>)
    ensures var all := RoomPanels(panels, rid);
      && |r| == (if |all| < RecentPanelCount then |all| else RecentPanelCount)
      && (forall k :: 0 <= k < |r| ==> r[k] == all[|all| - 1 - k])
  {
    Reverse(LastN(RoomPanels(panels, rid), RecentPanelCount))
  }

  // ---------------------------------------------------------------------
  // Consistency

  /**
   * What the room operations keep true: rooms are stored under their own id,
   * carry distinct well-formed codes, and each has at most MaxMembers members,
   * no (room, user) pair twice, and a turn-holder who is one of its members.
   */
  ghost predicate RoomsConsistent(rooms: map<RoomId, Room>, ms: seq<RoomMembership>) {
    && (forall id :: id in rooms ==> rooms[id].id == id && IsRoomCode(rooms[id].code))
    && (forall a, b :: a in rooms && b in rooms && a != b ==> rooms[a].code != rooms[b].code)
    && NoDuplicateMemberships(ms)
    && (forall id :: id in rooms ==> |MemberIds(ms, id)| <= MaxMembers)
    && (forall id :: id in rooms ==> rooms[id].currentTurnUserId in MemberIds(ms, id))
  }

  /** The shortest username a profile may carry after trimming, in Java `length()` units. */
  const MinUsernameLength: nat := 3

  /**
   * What the profile upsert keeps true: each profile is stored under its
   * owner's id, its username is trimmed and long enough, and no two users
   * share a username (the column is unique).
   */
  ghost predicate ProfilesConsistent(profiles: map<UserId, UserProfile>) {
    && (forall id :: id in profiles ==>
          profiles[id].id == id
          && IsTrimmed(profiles[id].username)
          && Utf16Length(profiles[id].username) >= MinUsernameLength)
    && (forall a, b :: a in profiles && b in profiles && a != b ==> profiles[a].username != profiles[b].username)
  }

  /** The database behind the repositories. */
  class Database {
    var rooms: map<RoomId, Room>
    var memberships: seq<RoomMembership>
    var panels: seq<Panel>
    var profiles: map<UserId, UserProfile>

    ghost predicate Valid()
      reads this
    {
      RoomsConsistent(rooms, memberships) && ProfilesConsistent(profiles)
    }

    constructor ()
      ensures Valid()
      ensures rooms == map[] && memberships == [] && panels == [] && profiles == map[]
    {
      rooms := map[];
      memberships := [];
      panels := [];
      profiles := map[];
    }
  }
}

=== FILE: story_prompt.dfy ===
/**
 * The pure side of panel creation: the "story so far" context built from
 * earlier prompts (with the summariser as an oracle), the decorated prompt
 * sent to the image generator, and the storage locations of panel images.
 */
module StoryPrompt {
  import opened Entities
  import opened Text

  /** Appended to every generation prompt. */
  const StyleSuffix: string := ", in the style of a graphic novel, comic book art, vibrant colors, detailed line work"

  /** Separator of the naive "story so far". */
  const PromptSeparator: string := ". "

  /** Target summary length per earlier prompt, in words. */
  const WordsPerPrompt: nat := 20

  const SummaryLead: string := "Summarize the following events in a short, connected paragraph of about "
  const SummaryWords: string := " words: "

  /** The target word count of the summary: grows linearly with the number of earlier prompts. */
  function TargetWordCount(prompts: seq<string>): nat {
    WordsPerPrompt * |prompts|
  }

  /** The text sent to the summariser. */
  function SummaryRequest(prompts: seq<string>): string {
    SummaryLead + Decimal(TargetWordCount(prompts)) + SummaryWords + Join(prompts, PromptSeparator)
  }

  /** The number written into the request reads back as 20 words per earlier prompt. */
  lemma SummaryRequestAsksForTwentyWordsEach(prompts: seq<string>)
    ensures var r := SummaryRequest(prompts); var d := Decimal(TargetWordCount(prompts));
      && |SummaryLead| + |d| <= |r|
      && r[..|SummaryLead|] == SummaryLead
      && r[|SummaryLead|..|SummaryLead| + |d|] == d
      && ParseDecimal(r[|SummaryLead|..|SummaryLead| + |d|]) == WordsPerPrompt * |prompts|
  {
    var d := Decimal(TargetWordCount(prompts));
    var r := SummaryRequest(prompts);
    assert r == SummaryLead + d + (SummaryWords + Join(prompts, PromptSeparator));
    assert r[|SummaryLead|..|SummaryLead| + |d|] == d;
    ParseDecimalOfDecimal(TargetWordCount(prompts));
  }

  /** A summariser answer is used when it arrived and is not blank. */
  predicate UsableSummary(answer: Option<string>) {
    answer.Some? && Trim(answer.value) != []
  }

  /**
   * `generateStoryContext`: "" for no prompts; otherwise the summariser's
   * answer to `SummaryRequest`, trimmed and stripped of double quotes, or the
   * prompts joined with ". " when the summariser fails or answers blank.
   */
  function StoryContext(prompts: seq<string>, summarize: string -> Option<string>): (r: string)
    ensures prompts == [] ==> r == ""
    ensures prompts != [] && !UsableSummary(summarize(SummaryRequest(prompts))) ==> r == Join(prompts, PromptSeparator)
    ensures prompts != [] && UsableSummary(summarize(SummaryRequest(prompts))) ==>
      var t := Trim(summarize(SummaryRequest(prompts)).value);
      && r == RemoveAll(t, '"')
      && '"' !in r && |r| <= |t| && multiset(r) == multiset(t)['"' := 0]
  {
    if prompts == [] then ""
    else
      var storySoFar := Join(prompts, PromptSeparator);
      var answer := summarize(SummaryRequest(prompts));
      if !UsableSummary(answer) then storySoFar
      else RemoveAll(Trim(answer.value), '"')
  }

  /** The fallback context keeps the oldest prompt first and the newest last. */
  lemma FallbackContextOrder(prompts: seq<string>, summarize: string -> Option<string>)
    requires prompts != [] && !UsableSummary(summarize(SummaryRequest(prompts)))
    ensures var r := StoryContext(prompts, summarize); var last := prompts[|prompts| - 1];
      && |prompts[0]| <= |r| && r[..|prompts[0]|] == prompts[0]
      && |last| <= |r| && r[|r| - |last|..] == last
  {
    JoinEndsWithLast(prompts, PromptSeparator);
  }

  /**
   * The prompt sent to the image generator: the caller's prompt and the style
   * suffix, preceded by the story context and ", " when there are earlier panels.
   */
  function GenerationPrompt(prompt: string, previous: seq<string>, summarize: string -> Option<string>): (r: string)
    ensures |prompt| + |StyleSuffix| <= |r|
    ensures r[|r| - |StyleSuffix|..] == StyleSuffix
    ensures r[|r| - |StyleSuffix| - |prompt|..|r| - |StyleSuffix|] == prompt
    ensures previous == [] <==> |r| == |prompt| + |StyleSuffix|
    ensures previous != [] ==>
      var context := StoryContext(previous, summarize);
      && |r| == |context| + 2 + |prompt| + |StyleSuffix|
      && r[..|context| + 2] == context + ", "
  {
    if previous == [] then prompt + StyleSuffix
    else StoryContext(previous, summarize) + ", " + prompt + StyleSuffix
  }

  // ---------------------------------------------------------------------
  // Storage locations

  const StorageBucket: string := "panels"

  /** Where a room's images live in the bucket: `<roomId>/`. */
  function StoragePrefix(rid: RoomId): string {
    rid + "/"
  }

  /** The object key of an image uploaded at `millis`: `<roomId>/<millis>.jpg`. */
  function ObjectKey(rid: RoomId, millis: nat): (key: string)
    ensures StoragePrefix(rid) <= key
    ensures |key| == |rid| + 1 + |Decimal(millis)| + 4 && key[|key| - 4..] == ".jpg"
    ensures key[|rid| + 1..|key| - 4] == Decimal(millis)
  {
    StoragePrefix(rid) + Decimal(millis) + ".jpg"
  }

  /** The URL an image is uploaded to, which is also the URL the panel records. */
  function ObjectUrl(storageUrl: string, rid: RoomId, millis: nat): (url: string)
    ensures var key := ObjectKey(rid, millis); |key| <= |url| && url[|url| - |key|..] == key
    ensures storageUrl <= url
    ensures var key := ObjectKey(rid, millis); var path := "/storage/v1/object/" + StorageBucket + "/";
      && |url| == |storageUrl| + |path| + |key|
      && url[|storageUrl|..|url| - |key|] == path
  {
    storageUrl + "/storage/v1/object/" + StorageBucket + "/" + ObjectKey(rid, millis)
  }

  /**
   * Deleting a room's prefix reaches exactly that room's uploads: the prefix
   * starts every key of the room and, since UUID text holds no '/', no key
   * of any other room.
   */
  lemma PrefixSelectsRoom(a: RoomId, b: RoomId, millis: nat)
    requires '/' !in a && '/' !in b
    ensures StoragePrefix(a) <= ObjectKey(b, millis) <==> a == b
  {
    var p, key := StoragePrefix(a), ObjectKey(b, millis);
    assert key == b + ("/" + Decimal(millis) + ".jpg");
    if p <= key {
      assert key[|a|] == p[|a|] == '/';
      assert forall k :: 0 <= k < |b| ==> key[k] == b[k];
      assert |a| == |b|;
      assert a == p[..|a|] == key[..|b|] == b;
    }
  }
}

=== FILE: text.dfy ===
/**
 * The string operations the services rely on, with Java's semantics:
 * `String.trim`, `String.replace` of one character by nothing,
 * `String.join`, ASCII upper-casing and decimal formatting of a number.
 */
module Text {

  /**
   * Java's `String.length()`: UTF-16 code units, so a character above U+FFFF
   * (a surrogate pair in Java) counts twice.
   */
  function Utf16Length(s: string): (n: nat)
    ensures |s| <= n <= 2 * |s|
  {
    if s == [] then 0 else (if s[0] as int > 0xFFFF then 2 else 1) + Utf16Length(s[1..])
  }

  /** One character is one code unit, or two (a surrogate pair) above U+FFFF. */
  lemma Utf16LengthOfChar(c: char)
    ensures Utf16Length([c]) == if c as int > 0xFFFF then 2 else 1
  {
    assert [c][1..] == [];
  }

  /** The code units of a concatenation are those of its halves. */
  lemma {:induction false} Utf16LengthAppend(a: string, b: string)
    ensures Utf16Length(a + b) == Utf16Length(a) + Utf16Length(b)
  {
    if a == [] {
      assert a + b == b;
    } else {
      assert (a + b)[0] == a[0];
      assert (a + b)[1..] == a[1..] + b;
      Utf16LengthAppend(a[1..], b);
    }
  }

  /** `String.trim` strips every leading and trailing character at or below U+0020. */
  predicate IsTrimmable(c: char) {
    c <= ' '
  }

  /** The first index at or after `i` that `trim` keeps: leading blanks are skipped. */
  function TrimFrom(s: string, i: nat): (j: nat)
    requires i <= |s|
    ensures i <= j <= |s|
    ensures forall k :: i <= k < j ==> IsTrimmable(s[k])
    ensures j < |s| ==> !IsTrimmable(s[j])
    decreases |s| - i
  {
    if i < |s| && IsTrimmable(s[i]) then TrimFrom(s, i + 1) else i
  }

  /** The end index, at most `j` and above `lo`, that `trim` keeps: trailing blanks are dropped. */
  function TrimTo(s: string, lo: nat, j: nat): (e: nat)
    requires lo <= j <= |s|
    ensures lo <= e <= j
    ensures forall k :: e <= k < j ==> IsTrimmable(s[k])
    ensures lo < e ==> !IsTrimmable(s[e - 1])
  {
    if lo < j && IsTrimmable(s[j - 1]) then TrimTo(s, lo, j - 1) else j
  }

  /** Neither starts nor ends with a trimmable character: what `trim` leaves. */
  predicate IsTrimmed(s: string) {
    s == [] || (!IsTrimmable(s[0]) && !IsTrimmable(s[|s| - 1]))
  }

  /**
   * `s.trim()`: advance a start index past the leading blanks, move the end
   * back past the trailing ones (never below the start), keep what is between.
   */
  function Trim(s: string): (r: string)
    ensures |r| <= |s|
    ensures IsTrimmed(r)
  {
    var b := TrimFrom(s, 0);
    s[b..TrimTo(s, b, |s|)]
  }

  /** Everything `trim` cuts off, before and after the kept slice, is blank. */
  lemma TrimCutsOnlyTrimmable(s: string)
    ensures var b := TrimFrom(s, 0); var e := TrimTo(s, b, |s|);
      && Trim(s) == s[b..e]
      && (forall k :: 0 <= k < b ==> IsTrimmable(s[k]))
      && (forall k :: e <= k < |s| ==> IsTrimmable(s[k]))
  {
  }

  /** The trimmed strings are exactly the ones `trim` leaves unchanged. */
  lemma TrimmedIsFixed(s: string)
    ensures IsTrimmed(s) <==> Trim(s) == s
  {
    if IsTrimmed(s) && s != [] {
      assert TrimFrom(s, 0) == 0;
      assert TrimTo(s, 0, |s|) == |s|;
      assert s[0..|s|] == s;
    }
  }

  lemma TrimIdempotent(s: string)
    ensures Trim(Trim(s)) == Trim(s)
  {
    TrimmedIsFixed(Trim(s));
  }

  /** A string is blank (trims to nothing) exactly when all its characters are trimmable. */
  lemma TrimEmptyIffBlank(s: string)
    ensures Trim(s) == [] <==> forall k :: 0 <= k < |s| ==> IsTrimmable(s[k])
  {
    TrimCutsOnlyTrimmable(s);
  }

  /** `s.replace(String.valueOf(c), "")`: every occurrence of `c` removed, nothing else touched. */
  function RemoveAll(s: string, c: char): (r: string)
    ensures c !in r
    ensures |r| <= |s|
    ensures multiset(r) == multiset(s)[c := 0]
  {
    if s == [] then []
    else
      assert s == [s[0]] + s[1..];
      (if s[0] == c then [] else [s[0]]) + RemoveAll(s[1..], c)
  }

  /** Removing from a concatenation removes from each half in place: the kept characters keep their order. */
  lemma {:induction false} RemoveAllAppend(a: string, b: string, c: char)
    ensures RemoveAll(a + b, c) == RemoveAll(a, c) + RemoveAll(b, c)
  {
    if a != [] {
      assert (a + b)[0] == a[0];
      assert (a + b)[1..] == a[1..] + b;
      RemoveAllAppend(a[1..], b, c);
    } else {
      assert a + b == b;
    }
  }

  /** A string without the character comes back unchanged. */
  lemma {:induction false} RemoveAllAbsent(s: string, c: char)
    requires c !in s
    ensures RemoveAll(s, c) == s
  {
    if s != [] {
      assert c !in s[1..];
      RemoveAllAbsent(s[1..], c);
    }
  }

  /** Total length of a list of strings. */
  function TotalLength(parts: seq<string>): nat {
    if parts == [] then 0 else |parts[0]| + TotalLength(parts[1..])
  }

  /** `String.join(sep, parts)`: the parts in order, one separator between neighbours. */
  function Join(parts: seq<string>, sep: string): (r: string)
    ensures parts == [] ==> r == []
    ensures |parts| == 1 ==> r == parts[0]
    ensures parts != [] ==> |r| == TotalLength(parts) + |sep| * (|parts| - 1)
    ensures parts != [] ==> r[..|parts[0]|] == parts[0]
  {
    if parts == [] then ""
    else if |parts| == 1 then parts[0]
    else parts[0] + sep + Join(parts[1..], sep)
  }

  /** Joining one more part appends the separator and that part: every part and separator sits in order. */
  lemma {:induction false} JoinAppend(parts: seq<string>, p: string, sep: string)
    requires parts != []
    ensures Join(parts + [p], sep) == Join(parts, sep) + sep + p
  {
    assert (parts + [p])[0] == parts[0];
    if |parts| > 1 {
      assert (parts + [p])[1..] == parts[1..] + [p];
      JoinAppend(parts[1..], p, sep);
    } else {
      assert (parts + [p])[1..] == [p];
    }
  }

  /** The last part closes the joined string. */
  lemma {:induction false} JoinEndsWithLast(parts: seq<string>, sep: string)
    requires parts != []
    ensures var r := Join(parts, sep); var p := parts[|parts| - 1];
      |p| <= |r| && r[|r| - |p|..] == p
  {
    if |parts| > 1 {
      JoinEndsWithLast(parts[1..], sep);
      var tail := Join(parts[1..], sep);
      assert Join(parts, sep) == parts[0] + sep + tail;
    }
  }

  /** ASCII upper-casing of one character; every other character is kept. */
  function UpperChar(c: char): char {
    if 'a' <= c <= 'z' then (c as int - 32) as char else c
  }

  function LowerChar(c: char): char {
    if 'A' <= c <= 'Z' then (c as int + 32) as char else c
  }

  /** `s.toUpperCase()` restricted to ASCII letters. */
  function ToUpper(s: string): (r: string)
    ensures |r| == |s|
    ensures forall i :: 0 <= i < |s| ==> r[i] == UpperChar(s[i])
  {
    if s == [] then [] else [UpperChar(s[0])] + ToUpper(s[1..])
  }

  function ToLower(s: string): (r: string)
    ensures |r| == |s|
    ensures forall i :: 0 <= i < |s| ==> r[i] == LowerChar(s[i])
  {
    if s == [] then [] else [LowerChar(s[0])] + ToLower(s[1..])
  }

  /** The characters of a room code: the upper-case ASCII letters and the digits. */
  predicate IsCodeChar(c: char) {
    'A' <= c <= 'Z' || '0' <= c <= '9'
  }

  /** Upper-casing changes nothing in a string of upper-case letters and digits. */
  lemma ToUpperFixesUpperAndDigits(s: string)
    requires forall i :: 0 <= i < |s| ==> IsCodeChar(s[i])
    ensures ToUpper(s) == s
  {
  }

  /** Upper-casing undoes lower-casing on upper-case letters and digits. */
  lemma UpperUndoesLower(s: string)
    requires forall i :: 0 <= i < |s| ==> IsCodeChar(s[i])
    ensures ToUpper(ToLower(s)) == s
  {
    var r := ToUpper(ToLower(s));
    forall i | 0 <= i < |s|
      ensures r[i] == s[i]
    {
      assert r[i] == UpperChar(ToLower(s)[i]);
      UpperUndoesLowerChar(s[i]);
    }
  }

  /** One code character survives lower-casing then upper-casing. */
  lemma UpperUndoesLowerChar(c: char)
    requires IsCodeChar(c)
    ensures UpperChar(LowerChar(c)) == c
  {
  }

  predicate IsDigit(c: char) {
    '0' <= c <= '9'
  }

  function DigitChar(d: nat): (c: char)
    requires d < 10
    ensures IsDigit(c)
  {
    ('0' as int + d) as char
  }

  function DigitValue(c: char): nat
    requires IsDigit(c)
  {
    c as int - '0' as int
  }

  /** The decimal text of `n`, as `%d` and `Long.toString` write it. */
  function Decimal(n: nat): (r: string)
    ensures r != []
    ensures forall i :: 0 <= i < |r| ==> IsDigit(r[i])
    ensures r[0] == '0' ==> r == "0"
  {
    if n < 10 then [DigitChar(n)] else Decimal(n / 10) + [DigitChar(n % 10)]
  }

  /** Reads a string of digits back as a number. */
  function ParseDecimal(s: string): nat
    requires forall i :: 0 <= i < |s| ==> IsDigit(s[i])
  {
    if s == [] then 0 else 10 * ParseDecimal(s[..|s| - 1]) + DigitValue(s[|s| - 1])
  }

  lemma {:induction false} ParseDecimalOfDecimal(n: nat)
    ensures ParseDecimal(Decimal(n)) == n
  {
    var r := Decimal(n);
    if n >= 10 {
      ParseDecimalOfDecimal(n / 10);
      assert r[..|r| - 1] == Decimal(n / 10);
    }
  }
}

=== FILE: turn_rotation.dfy ===
/**
 * Whose turn it is after a panel is saved: round robin through the room's
 * members in join order, `(index + 1) % n`, where a holder missing from the
 * list has index -1 and a room of at most one member keeps its holder.
 */
module TurnRotation {
  import opened Entities
  import opened Store

  /** Position of the first occurrence of `u`, or -1 when `u` is absent. */
  function IndexOf(members: seq<UserId>, u: UserId): (i: int)
    ensures -1 <= i < |members|
    ensures i == -1 <==> u !in members
    ensures 0 <= i ==> members[i] == u && u !in members[..i]
  {
    if members == [] then -1
    else if members[0] == u then 0
    else
      var j := IndexOf(members[1..], u);
      assert j >= 0 ==> members[..j + 1] == [members[0]] + members[1..][..j];
      if j == -1 then -1 else j + 1
  }

  /** The position after `i` in a round of `n`: `(i + 1) % n`, so -1 leads to 0 and n - 1 wraps to 0. */
  function NextIndex(i: int, n: nat): (j: nat)
    requires 0 < n && -1 <= i < n
    ensures j < n
    ensures j == if i + 1 == n then 0 else i + 1
  {
    if i + 1 < n then
      ModOfSmall(i + 1, n, 0, i + 1);
      (i + 1) % n
    else
      ModOfSmall(n, n, 1, 0);
      (i + 1) % n
  }

  /** The turn-holder after `current` submitted a panel. */
  function NextTurnHolder(members: seq<UserId>, current: UserId): UserId {
    if |members| <= 1 then current
    else members[NextIndex(IndexOf(members, current), |members|)]
  }

  /**
   * The search loop of `advanceTurn`: scan the members in join order and stop
   * at the first one holding the turn; -1 when there is none.
   */
  method FindTurnIndex(members: seq<UserId>, current: UserId) returns (index: int)
    ensures index == IndexOf(members, current)
    ensures index == -1 <==> current !in members
    ensures 0 <= index ==> index < |members| && members[index] == current && current !in members[..index]
  {
    index := -1;
    for i := 0 to |members|
      invariant current !in members[..i]
    {
      if members[i] == current {
        index := i;
        break;
      }
      assert members[..i + 1] == members[..i] + [members[i]];
    }
    if index == -1 {
      assert members[..|members|] == members;
    }
    IndexOfFirst(members, current, index);
  }

  /** The first position holding `u` is the one IndexOf reports. */
  lemma IndexOfFirst(members: seq<UserId>, u: UserId, i: int)
    requires -1 <= i < |members|
    requires i == -1 ==> u !in members
    requires 0 <= i ==> members[i] == u && u !in members[..i]
    ensures IndexOf(members, u) == i
  {
  }

  /** With no duplicate members, the member at position i passes the turn to position (i + 1) mod n. */
  lemma NextTurnHolderFollows(members: seq<UserId>, i: nat)
    requires Distinct(members)
    requires 2 <= |members| && i < |members|
    ensures NextTurnHolder(members, members[i]) == members[NextIndex(i, |members|)]
  {
    if 0 < i {
      assert members[..i][..] == members[..i];
      assert forall k :: 0 <= k < i ==> members[k] != members[i];
      assert members[i] !in members[..i];
    }
    IndexOfFirst(members, members[i], i);
  }

  /** The last member in join order hands the turn back to the first. */
  lemma LastMemberWrapsToFirst(members: seq<UserId>)
    requires Distinct(members)
    requires 2 <= |members|
    ensures NextTurnHolder(members, members[|members| - 1]) == members[0]
  {
    var n := |members|;
    NextTurnHolderFollows(members, n - 1);
    ModOfSmall(n, n, 1, 0);
  }

  /** A holder who is not in the list is replaced by the first member. */
  lemma MissingHolderGoesToFirst(members: seq<UserId>, current: UserId)
    requires 2 <= |members| && current !in members
    ensures NextTurnHolder(members, current) == members[0]
  {
  }

  /** With two or more members the turn always lands on a member, and with distinct members it always changes hands. */
  lemma NextTurnHolderIsOtherMember(members: seq<UserId>, current: UserId)
    requires current in members || 2 <= |members|
    ensures NextTurnHolder(members, current) in members
    ensures Distinct(members) && 2 <= |members| && current in members ==> NextTurnHolder(members, current) != current
  {
    if 2 <= |members| && current in members && Distinct(members) {
      var i := IndexOf(members, current);
      NextTurnHolderFollows(members, i);
    }
  }

  lemma {:induction false} MulMonotone(a: nat, b: nat, n: nat)
    requires a <= b
    ensures a * n <= b * n
  {
    if a < b {
      MulMonotone(a, b - 1, n);
      assert b * n == (b - 1) * n + n;
    }
  }

  /** A number written as q * n + r with 0 <= r < n leaves remainder r. */
  lemma ModOfSmall(x: nat, n: nat, q: nat, r: nat)
    requires 0 < n && r < n && x == q * n + r
    ensures x % n == r
  {
    var q', r' := x / n, x % n;
    assert x == q' * n + r';
    if q' < q {
      MulMonotone(q' + 1, q, n);
    } else if q' > q {
      MulMonotone(q + 1, q', n);
    }
  }

  lemma ModSucc(a: nat, n: nat)
    requires 0 < n
    ensures (a % n + 1) % n == (a + 1) % n
  {
    var q, r := a / n, a % n;
    assert a == q * n + r;
    if r + 1 < n {
      ModOfSmall(a + 1, n, q, r + 1);
      ModOfSmall(r + 1, n, 0, r + 1);
    } else {
      assert a + 1 == (q + 1) * n + 0;
      ModOfSmall(a + 1, n, q + 1, 0);
      ModOfSmall(r + 1, n, 1, 0);
    }
  }

  /** The holder after `k` successive panels starting from `current`. */
  function HolderAfter(members: seq<UserId>, current: UserId, k: nat): UserId {
    if k == 0 then current else NextTurnHolder(members, HolderAfter(members, current, k - 1))
  }

  /** The position holding the turn after k panels, starting at position i. */
  function TurnPosition(i: nat, k: nat, n: nat): (p: nat)
    requires i < n
    ensures p < n
  {
    if k == 0 then i else NextIndex(TurnPosition(i, k - 1, n), n)
  }

  /** Stepping k times from position i lands on position (i + k) mod n. */
  lemma {:induction false} TurnPositionIsMod(i: nat, k: nat, n: nat)
    requires i < n
    ensures TurnPosition(i, k, n) == (i + k) % n
  {
    if k == 0 {
      ModOfSmall(i, n, 0, i);
    } else {
      TurnPositionIsMod(i, k - 1, n);
      var j := TurnPosition(i, k - 1, n);
      ModSucc(i + k - 1, n);
      if j + 1 < n {
        ModOfSmall(j + 1, n, 0, j + 1);
      } else {
        ModOfSmall(j + 1, n, 1, 0);
      }
    }
  }

  /** With distinct members, after k panels from position i the turn is at TurnPosition(i, k, n). */
  lemma {:induction false} HolderAtPosition(members: seq<UserId>, i: nat, k: nat)
    requires Distinct(members)
    requires 2 <= |members| && i < |members|
    ensures HolderAfter(members, members[i], k) == members[TurnPosition(i, k, |members|)]
  {
    if k > 0 {
      HolderAtPosition(members, i, k - 1);
      NextTurnHolderFollows(members, TurnPosition(i, k - 1, |members|));
    }
  }

  /**
   * Round robin: starting from the member at position i, after k panels the
   * turn is with the member at position (i + k) mod n.
   */
  lemma HolderAfterSteps(members: seq<UserId>, i: nat, k: nat)
    requires Distinct(members)
    requires 2 <= |members| && i < |members|
    ensures HolderAfter(members, members[i], k) == members[(i + k) % |members|]
  {
    HolderAtPosition(members, i, k);
    TurnPositionIsMod(i, k, |members|);
  }

  /** Every member gets the turn within n panels of any starting holder. */
  lemma EveryMemberGetsATurn(members: seq<UserId>, i: nat, u: UserId)
    requires Distinct(members)
    requires 2 <= |members| && i < |members|
    requires u in members
    ensures exists k :: 0 <= k < |members| && HolderAfter(members, members[i], k) == u
  {
    var n := |members|;
    var j := IndexOf(members, u);
    var k := if i <= j then j - i else j + n - i;
    ModOfSmall(i + k, n, if i <= j then 0 else 1, j);
    HolderAfterSteps(members, i, k);
  }

  /** After exactly n panels the turn is back with the member who started. */
  lemma FullRoundReturns(members: seq<UserId>, i: nat)
    requires Distinct(members)
    requires 2 <= |members| && i < |members|
    ensures HolderAfter(members, members[i], |members|) == members[i]
  {
    var n := |members|;
    HolderAfterSteps(members, i, n);
    var m := (i + n) % n;
    assert HolderAfter(members, members[i], n) == members[m];
    ModOfSmall(i + n, n, 1, i);
    assert m == i;
  }
}

=== FILE: user_controller.dfy ===
/**
 * The profile endpoints: the caller's own profile, the create-or-update of
 * the caller's username (trimmed, at least three characters, unique), and a
 * batch lookup by ids. The caller's id is a parameter.
 */
module UserController {
  import opened Entities
  import opened Text
  import opened Store

  datatype ProfileError = BadRequest | UsernameTaken

  /** The answer to an upsert and the profile table after it. */
  datatype ProfileOutcome = ProfileOutcome(result: Result<UserProfile, ProfileError>, profiles: map<UserId, UserProfile>)

  /**
   * The request body's "username" entry: None when the key is missing or
   * holds JSON null.
   */
  function UsernameOf(payload: map<string, Option<string>>): Option<string> {
    if "username" in payload then payload["username"] else None
  }

  /**
   * Username validation: a missing name, or one shorter than three UTF-16
   * code units once trimmed, is refused; otherwise the trimmed name is kept.
   */
  function ValidUsername(username: Option<string>): (r: Option<string>)
    ensures r.Some? <==> username.Some? && Utf16Length(Trim(username.value)) >= MinUsernameLength
    ensures r.Some? ==> r.value == Trim(username.value)
    ensures r.Some? ==> IsTrimmed(r.value) && Utf16Length(r.value) >= MinUsernameLength
    ensures r.Some? ==> |r.value| <= |username.value|
  {
    if username.None? || Utf16Length(Trim(username.value)) < MinUsernameLength then None
    else Some(Trim(username.value))
  }

  /**
   * Length is counted as Java counts it: two characters above U+FFFF are
   * four code units, enough for a username.
   */
  lemma TwoAstralCharactersAreLongEnough()
    ensures ValidUsername(Some("\U{1F600}\U{1F600}")) == Some("\U{1F600}\U{1F600}")
  {
    var s := "\U{1F600}\U{1F600}";
    assert TrimFrom(s, 0) == 0;
    assert TrimTo(s, 0, |s|) == |s|;
    assert s[0..|s|] == s;
    assert Utf16Length(s) == 2 + Utf16Length(s[1..]);
    assert Utf16Length(s[1..]) == 2 + Utf16Length(s[2..]);
    assert s[2..] == [];
  }

  /** A name made only of blanks is refused, whatever its length. */
  lemma BlankUsernameRefused(s: string)
    requires forall k :: 0 <= k < |s| ==> IsTrimmable(s[k])
    ensures ValidUsername(Some(s)) == None
  {
    TrimEmptyIffBlank(s);
  }

  /** Some user other than `caller` already holds `name`, which the unique column forbids. */
  predicate HeldByOther(profiles: map<UserId, UserProfile>, caller: UserId, name: string) {
    exists id :: id in profiles && id != caller && profiles[id].username == name
  }

  /** `createOrUpdateProfile` on values. */
  function UpsertProfile(profiles: map<UserId, UserProfile>, caller: UserId, username: Option<string>): (o: ProfileOutcome)
    ensures o.result == Err(BadRequest) <==> ValidUsername(username).None?
    ensures o.result == Err(UsernameTaken) <==>
      ValidUsername(username).Some? && HeldByOther(profiles, caller, ValidUsername(username).value)
    ensures o.result.Err? ==> o.profiles == profiles
    ensures o.result.Ok? ==> username.Some? && o.result.value == UserProfile(caller, Trim(username.value))
  {
    match ValidUsername(username)
    case None => ProfileOutcome(Err(BadRequest), profiles)
    case Some(name) =>
      if HeldByOther(profiles, caller, name) then ProfileOutcome(Err(UsernameTaken), profiles)
      else ProfileOutcome(Ok(UserProfile(caller, name)), profiles[caller := UserProfile(caller, name)])
  }

  /**
   * An upsert keys the profile by the caller: the caller's entry becomes the
   * saved profile (created or overwritten) and every other entry is unchanged.
   */
  lemma UpsertTouchesOnlyCaller(profiles: map<UserId, UserProfile>, caller: UserId, username: Option<string>, other: UserId)
    requires other != caller
    ensures var o := UpsertProfile(profiles, caller, username);
      && (o.result.Ok? ==> caller in o.profiles && o.profiles[caller] == o.result.value)
      && (other in o.profiles <==> other in profiles)
      && (other in profiles ==> o.profiles[other] == profiles[other])
  {
  }

  /** Sending the same username twice leaves what the first request left, with the same answer. */
  lemma UpsertIdempotent(profiles: map<UserId, UserProfile>, caller: UserId, username: Option<string>)
    ensures var o := UpsertProfile(profiles, caller, username);
      UpsertProfile(o.profiles, caller, username) == o
  {
  }

  /** A later successful upsert by the same caller replaces the earlier username. */
  lemma LastUsernameWins(profiles: map<UserId, UserProfile>, caller: UserId, first: Option<string>, second: Option<string>)
    requires UpsertProfile(profiles, caller, first).result.Ok?
    ensures var o1 := UpsertProfile(profiles, caller, first);
      var o2 := UpsertProfile(o1.profiles, caller, second);
      o2.result.Ok? ==> o2.profiles[caller].username == Trim(second.value)
  {
  }

  /** Upserts keep every stored username trimmed, long enough and held by one user only. */
  lemma UpsertKeepsConsistent(profiles: map<UserId, UserProfile>, caller: UserId, username: Option<string>)
    requires ProfilesConsistent(profiles)
    ensures ProfilesConsistent(UpsertProfile(profiles, caller, username).profiles)
  {
    var o := UpsertProfile(profiles, caller, username);
    if o.result.Ok? {
      var name := o.result.value.username;
      assert !HeldByOther(profiles, caller, name);
      assert forall id :: id in profiles && id != caller ==> profiles[id].username != name;
    }
  }

  /** `createOrUpdateProfile`. */
  method CreateOrUpdateProfile(db: Database, caller: UserId, payload: map<string, Option<string>>)
    returns (result: Result<UserProfile, ProfileError>)
    requires db.Valid()
    modifies db`profiles
    ensures db.Valid()
    ensures ProfileOutcome(result, db.profiles) == UpsertProfile(old(db.profiles), caller, UsernameOf(payload))
  {
    UpsertKeepsConsistent(db.profiles, caller, UsernameOf(payload));
    var username := UsernameOf(payload);
    if username.None? || Utf16Length(Trim(username.value)) < MinUsernameLength {
      return Err(BadRequest);
    }
    var profile := UserProfile(caller, Trim(username.value));
    if HeldByOther(db.profiles, caller, profile.username) {
      return Err(UsernameTaken);
    }
    db.profiles := db.profiles[caller := profile];
    result := Ok(profile);
  }

  /** `getMyProfile`: the caller's profile, None standing for not-found. */
  function GetMyProfile(db: Database, caller: UserId): (r: Option<UserProfile>)
    reads db
    ensures r.Some? <==> caller in db.profiles
    ensures r.Some? ==> r.value == db.profiles[caller]
    ensures db.Valid() && r.Some? ==> r.value.id == caller && Utf16Length(r.value.username) >= MinUsernameLength
  {
    if caller in db.profiles then Some(db.profiles[caller]) else None
  }

  /** After a successful upsert the caller's own profile reads back the trimmed name. */
  lemma ProfileReadsBackAfterUpsert(profiles: map<UserId, UserProfile>, caller: UserId, username: Option<string>)
    requires UpsertProfile(profiles, caller, username).result.Ok?
    ensures var o := UpsertProfile(profiles, caller, username);
      caller in o.profiles && o.profiles[caller] == UserProfile(caller, Trim(username.value))
  {
  }

  /** `getUserProfiles` (`findAllById`): the stored profiles of the requested ids; unknown ids are skipped. */
  function GetUserProfiles(db: Database, ids: seq<UserId>): (r: set<UserProfile>)
    reads db
    ensures forall id :: id in ids && id in db.profiles ==> db.profiles[id] in r
    ensures db.Valid() ==> forall p :: p in r ==> p.id in ids && p.id in db.profiles && db.profiles[p.id] == p
  {
    set id | id in ids && id in db.profiles :: db.profiles[id]
  }
}
